=== FILE: README.md ===
# Botnology client logic in Dafny

Botnology is a study platform. A browser client talks to a small API. This
project models the decision logic of that client and proves properties
about it. Each area below has its own module.

- **Checkout** (`Checkout`, with `Base64`, `Json`, `Http`). This is
  `startCheckout(plan, cadence)`, the flow that opens a payment session:
  - it validates the plan and cadence;
  - it reads `student_id` and `email` from the unverified middle segment of
    the stored session token (`atob` followed by `JSON.parse`);
  - it posts the request;
  - it reduces the reply to exactly one outcome: `{success: true, url}`,
    `{success: false, message}` or `{success: false, error}`, together with
    the alert text and the redirect.

  The classification of the reply is modelled in full. The content type is
  matched case-insensitively and may carry parameters. Error bodies are read
  as JSON or as text. A success body that is not JSON falls back to
  `{detail: text}`.
- **Courses** (`Courses`). The course catalog and the student record:
  - catalog filtering by plan tier;
  - course progress as a rounded percentage;
  - enrollment, including the first-enrollment achievement;
  - achievement awards and the experience they add;
  - the credit-weighted GPA on the 4.0 scale;
  - the level computed from experience.
- **Study hall** (`StudyHall`):
  - the focus timer (start, pause, toggle, one-second ticks, finish) and its
    `m:ss` display;
  - quiz grading and the running average score;
  - the five result bands;
  - extraction of the JSON object from an assistant reply;
  - flashcard navigation.
- **Client helpers** (`Client`):
  - the `localStorage` wrappers, token storage and the `Authorization`
    header;
  - plan storage and student-id generation;
  - the error path shared by `apiGet` and `apiPost`;
  - chat sending with the 20-message history bound;
  - the handling of a `?checkout=success&plan=…` return URL.

JavaScript semantics are written out where the results depend on them:
- truthiness, `a || b`, and `String(v)`;
- the `TypeError` raised by reading a property of `null`;
- `Math.round` as round-half-up (`JsMath.RoundDiv`);
- `Math.floor`, and the truncating `%`;
- `trim` with the ECMAScript white-space set;
- `atob`/`btoa` as the forgiving-base64 decode and encode of the WHATWG
  Infra standard.

Some things become parameters:
- `JSON.parse` is a `Parser` (a string to a value or a `SyntaxError`);
- `JSON.stringify` is a function;
- the server is a function from request to reply;
- clocks and random draws are plain arguments.

Some behaviours of the code look accidental. The model keeps them as the code has them:

- A non-2xx reply that declares JSON but has an unparsable body ends in the `Error` outcome, and its message is the parser's `SyntaxError` message, not `HTTP {status}`. The promise still resolves, through the `catch`, to `{success: false, error}`.
- The validation path resolves to `undefined`: it alerts and returns before any outcome object is built.
- A plan outside the three tiers sees every course, because the tier comparison is false for an unknown rank.
- A quiz with no questions scores `NaN`, and `NaN` then spreads into the average.

## Model

| member | source | states |
|---|---|---|
| Checkout.StartCheckout | __tests__/startCheckout.test.js:36-120 | A request is sent exactly when plan and cadence are both non-empty, and it carries them unchanged. Otherwise the only effect is the "Invalid plan or cadence selected." alert, and the promise resolves to `undefined`. The request carries the student id and email read from the token. The outcome is what the server's reply to that request resolves to. The alert is the one for that outcome: none on success, and one for every other outcome. A redirect happens exactly when the outcome is a success, and it goes to that outcome's URL. |
| Checkout.AlertShowsMessage | __tests__/startCheckout.test.js:110-118 | After a request, an error alert is the error prefix followed by the error message, and a failure alert is the failure prefix followed by `detail` or "No URL returned". Either way the alert contains the message. |
| Checkout.ValidationShortCircuits | __tests__/startCheckout.test.js:37-40 | A missing plan or cadence alerts, sends nothing and resolves to `undefined`, whatever the token and the server. |
| Checkout.SecondSegment | __tests__/startCheckout.test.js:48 | `token.split('.')[1]` is undefined exactly when the token has no `.`. Otherwise it is the text after the first `.`, up to the next `.` or the end. |
| Checkout.SecondSegmentOf | __tests__/startCheckout.test.js:48 | For a token `head.seg.rest` where neither head nor seg contains `.`, the second segment is exactly `seg`. |
| Checkout.Payload | __tests__/startCheckout.test.js:48-53 | A token without a `.`, or with an empty second segment, is rejected as "Invalid token format". A segment `atob` rejects, a text `JSON.parse` rejects (with the parser's message) and a `null` payload are each rejected. Any other decoded text is accepted as the value it parses to, and an accepted payload is never `null`. |
| Checkout.PayloadOfToken | __tests__/startCheckout.test.js:48-51 | For `head.btoa(text).signature`, where `text` parses to an object, the decoded payload is exactly that object. |
| Checkout.ClaimsOf | __tests__/startCheckout.test.js:42-57 | No token, or an empty one, gives the defaults `BN-UNKNOWN` and `""`, and so does every token whose payload is rejected. For an accepted payload, a truthy `student_id` or `email` is sent as it is, and a falsy one is replaced by `BN-UNKNOWN` or `""`. The student id is always truthy. The email is either `""` or truthy. |
| Checkout.UndecodableTokenAnonymous | __tests__/startCheckout.test.js:46-56 | An empty second segment, a segment `atob` rejects, a payload text `JSON.parse` rejects, and a `null` payload each give the defaults `BN-UNKNOWN` and `""`. |
| Checkout.TokenRoundTrip | __tests__/startCheckout.test.js:353 | A token whose base64 payload encodes `{student_id, email}` yields exactly that student id and that email. |
| Checkout.MalformedTokenUsesDefaults | __tests__/startCheckout.test.js:388 | A token without a `.` does not stop the checkout. The request is sent with `BN-UNKNOWN` and an empty email. |
| Checkout.Interpret | __tests__/startCheckout.test.js:104-113 | The data of a 2xx reply ends in an error exactly when it is `null`, since reading `url` throws. It ends in a success exactly when `url` is truthy, and the success carries that URL. Otherwise it is a failure whose message is `detail`, or "No URL returned". |
| Checkout.Resolve | __tests__/startCheckout.test.js:75-119 | A network failure becomes an error with its own message. Every non-2xx reply becomes an error. A failure outcome only ever comes from a 2xx reply. |
| Checkout.SuccessExactly | __tests__/startCheckout.test.js:94-109 | The outcome is a success exactly when the reply is 2xx and its body parses to a non-`null` value with a truthy `url`. A 2xx plain-text body never redirects. |
| Checkout.FailureExactly | __tests__/startCheckout.test.js:94-113 | A 2xx body that is not JSON becomes a failure whose message is the body itself, or "No URL returned" when the body is empty. A 2xx reply fails exactly when its data is not `null` and has no truthy `url`. |
| Checkout.ErrorReplies | __tests__/startCheckout.test.js:78-91 | A non-2xx reply always ends in an error. With a JSON content type and an object body, the message is `detail` when that is truthy, and `HTTP {status}` otherwise. A body that does not parse gives the parser's `SyntaxError` message. A `null` body gives the TypeError of reading `detail`. Any other non-object body gives `HTTP {status}`. With any other content type, or none, the message is the body text, or `HTTP {status}` when the body is empty. |
| Checkout.OnlyDetailIsRead | __tests__/startCheckout.test.js:83 | Two JSON error bodies with the same `detail` and the same status give the same outcome, whatever else they contain. |
| Checkout.ResolveIgnoresCase | __tests__/startCheckout.test.js:79-80 | Changing only the letter case of the content type never changes the outcome. |
| Checkout.JsonMediaTypeFirst | __tests__/startCheckout.test.js:79-80 | A content type whose media type is `application/json` in any letter case counts as JSON, whatever parameters follow it. |
| Checkout.JsonContentTypes | __tests__/startCheckout.test.js:334 | `application/json` counts as JSON, and so do `Application/JSON`, `application/json; charset=utf-8` and a value with several parameters. |
| Checkout.NonJsonContentTypes | __tests__/startCheckout.test.js:307 | `text/plain` and `text/html` do not count as JSON, and neither does a missing header. |
| Checkout.RedirectsToUrl | __tests__/startCheckout.test.js:138 | A 2xx reply `{url}` with a non-empty url resolves to a success with that url and raises no alert. |
| Base64.Atob | __tests__/startCheckout.test.js:50 | Whatever `atob` accepts decodes to a binary string. `Base64.AtobBtoa` gives its inverse property. |
| Base64.Btoa | __tests__/startCheckout.test.js:50 | `btoa` succeeds exactly on binary strings. Its output is made of whole groups of four characters. |
| Base64.EncodedLength | __tests__/startCheckout.test.js:50 | Every three bytes become four digits, and a final one or two bytes become two or three digits. |
| Base64.GroupRoundTrip | __tests__/startCheckout.test.js:50 | One encoded group of one to three bytes decodes back to those bytes. |
| Base64.DigitsRoundTrip | __tests__/startCheckout.test.js:50 | Unpadded digits never leave a single digit over, and they decode back to the bytes they encode. |
| Base64.StripEncoded | __tests__/startCheckout.test.js:50 | Stripping the `=` padding from `btoa`'s output leaves exactly its digits. |
| Base64.AtobBtoa | __tests__/startCheckout.test.js:50 | `atob(btoa(s)) == s` for every binary string. |
| Base64.BtoaHasNoDot | __tests__/startCheckout.test.js:48-50 | `btoa` output never contains the `.` that separates the segments of a token. |
| Json.Lookup | __tests__/startCheckout.test.js:52-53 | A property read is undefined exactly when no member has that name. Otherwise it gives the value of the last member with that name. |
| Json.Get | __tests__/startCheckout.test.js:52-53 | Reading a property throws exactly on `null`. On an object it is the member lookup, and on any other value it is undefined. |
| Json.Or | __tests__/startCheckout.test.js:52 | JavaScript's logical or gives its left operand when that is truthy, and its right operand otherwise. |
| Json.LookupOverride | __tests__/startCheckout.test.js:52-53 | A member appended with a given name wins the lookup of that name. |
| Json.ToJsString | __tests__/startCheckout.test.js:84 | `String(v)` of a string is the string itself. Of a non-negative integer it is decimal digits (see "Left out" for numbers from 1e21 up). |
| JsText.Lower | __tests__/startCheckout.test.js:80 | `toLowerCase` maps each upper-case ASCII letter to its lower-case letter and keeps every other character in place. The result has no upper-case ASCII letter. |
| JsText.LowerIdempotent | public/script.js:36 | Lower-casing twice is the same as lower-casing once. |
| JsText.LowerFixedPoints | __tests__/startCheckout.test.js:80 | A string is unchanged by lower-casing exactly when it has no upper-case ASCII letter. |
| JsText.ContainsMiddle | __tests__/startCheckout.test.js:80 | `includes` finds any string that another string is built around. |
| JsText.IndexOf | public/study-hall.js:605 | `indexOf` is -1 exactly when the character is absent. Otherwise it is a position holding the character with no earlier occurrence. |
| JsText.LastIndexOf | public/study-hall.js:606 | `lastIndexOf` is -1 exactly when the character is absent. Otherwise it is a position holding the character with no later occurrence. |
| JsText.IndexOfAfter | public/study-hall.js:605 | The first occurrence follows a prefix that does not contain the character. |
| JsText.LastIndexOfBefore | public/study-hall.js:606 | The last occurrence precedes a suffix that does not contain the character. |
| JsText.IndexOfUnique | public/study-hall.js:605 | Wherever a character occurs with no earlier occurrence, `indexOf` answers exactly that position. |
| JsText.LastIndexOfUnique | public/study-hall.js:606 | Wherever a character occurs with no later occurrence, `lastIndexOf` answers exactly that position. |
| JsText.Trim | public/study-hall.js:604 | `trim` returns a middle part of the input that neither starts nor ends with white space. Everything removed around it is white space. |
| JsText.NatToStringValue | public/study-hall.js:416 | The decimal digits of `n` read back as `n`. |
| JsText.NatToStringInjective | public/study-hall.js:416 | Distinct numbers have distinct decimal texts. |
| JsText.PadTwo | public/study-hall.js:416 | `padStart(2, '0')` keeps a string of two or more characters. A shorter string gets leading zeros up to length two. |
| JsMath.RoundDiv | public/study-hall.js:646 | `Math.round(p / q)` is the integer within one half of `p / q`, with halves rounded up. |
| JsMath.RoundDivUnique | public/study-hall.js:646 | Only one integer satisfies that characterisation. |
| JsMath.RoundDivBetween | public/study-hall.js:913 | A rounded quotient of a value between `q*lo` and `q*hi` lies between `lo` and `hi`. |
| JsMath.FloorDiv | api/index.py:1047 | `Math.floor(a / b)` is the unique `r` with `b*r <= a < b*r + b`. |
| JsMath.JsRem | api/index.py:1048 | The truncating `%` takes the sign of the dividend, stays below the divisor in size, and completes the truncating division. |
| Courses.FindBy | api/index.py:748-749 | The lookup behind `COURSE_CATALOG[id]` (`Courses.FindCourse`) and `ACHIEVEMENTS.find` (`Courses.FindAchievement`). It fails exactly when no element has the id. Otherwise it returns an element of the list with that id. |
| Courses.CourseCatalogValid | api/index.py:8-274 | Every one of the twelve catalog courses has positive credits and at least one assignment. |
| Courses.TierOrder | api/index.py:664 | Exactly `associates`, `bachelors` and `masters` have a tier rank, numbered 1 to 3. |
| Courses.CatalogCards | api/index.py:658-677 | A course gets a card exactly when its tier is shown to the plan. The card marks the course enrolled exactly when its id is among the enrolled ids. |
| Courses.TierGating | api/index.py:662-670 | On a known plan, a course of a known tier gets a card exactly when it is in the catalog and its tier rank is at most the plan's. |
| Courses.HigherTierSeesMore | api/index.py:662-670 | Every card shown to a lower plan is also shown to a higher one. |
| Courses.UnknownPlanSeesAll | api/index.py:665-668 | A plan outside the three tiers sees every course in the catalog. |
| Courses.CountFor | api/index.py:737-739 | The count of completed assignments for a course is zero exactly when none belongs to it, and never more than the list. |
| Courses.CourseProgress | api/index.py:733-742 | An unknown course has progress 0. Otherwise progress is the completed fraction of the course's assignments, as a percentage rounded half up. |
| Courses.ProgressBounds | api/index.py:741 | All assignments done gives 100. No more than the assignment count done gives at most 100. None done gives 0. |
| Courses.AwardAchievement | api/index.py:1058-1065 | An achievement already earned, or an unknown one, changes nothing. Otherwise its id is appended, its xp is added, and nothing else changes. Afterwards the id is earned unless it is unknown. |
| Courses.AwardIdempotent | api/index.py:1059 | Awarding the same achievement twice is the same as awarding it once. |
| Courses.AwardKeepsXpAccounted | api/index.py:1058-1065 | When each achievement is earned at most once and xp is the sum of their points, an award keeps both true. |
| Courses.NewStudentXpAccounted | api/index.py:297-304 | The initial student record satisfies that bookkeeping invariant. |
| Courses.EnrollInCourse | api/index.py:747-770 | Enrolling in an unknown course, or in one already enrolled, changes nothing. Otherwise the id is appended and an ungraded grade is recorded for it, with completions and level unchanged. The first enrollment awards `first_enrollment`. Later enrollments leave achievements and xp alone. So does a first enrollment when the record already holds `first_enrollment` or no such achievement is defined. |
| Courses.EnrollKeepsSound | api/index.py:747-757 | The enrolled list stays free of duplicates. Every enrolled id stays a catalog course with a grade entry. |
| Courses.EnrollIdempotent | api/index.py:751-754 | Enrolling twice in the same course is the same as enrolling once. |
| Courses.GradePoint | api/index.py:968-980 | The grade point never exceeds 4.0. It is 0 exactly below 65 and 4.0 exactly from 93 up. |
| Courses.GradePointMonotone | api/index.py:968-980 | A higher percentage never earns a lower grade point. |
| Courses.Totals | api/index.py:954-963 | Weighted points never exceed 4.0 times the credits. The sums exist whenever every graded enrolled course is in the catalog. With no graded course, both sums are 0. |
| Courses.TotalsSingle | api/index.py:955-962 | One id adds nothing when its course is ungraded. A graded id adds its grade point times its credits, and its credits. A graded id with no course throws on reading `course.credits`. |
| Courses.TotalsConcat | api/index.py:954-963 | The sums over two runs of ids are the sums of each run. With the single-id case, this makes the totals the credit-weighted sum over all graded courses, whatever their number. |
| Courses.Gpa | api/index.py:948-966 | No enrolled course gives 0, and so does an enrollment with no graded course. Any GPA computed lies between 0.0 and 4.0. A sound record always yields one. |
| Courses.UngradedIgnored | api/index.py:958 | A course with no positive grade contributes nothing to the GPA sums. |
| Courses.SingleCourseGpa | api/index.py:958-965 | With one graded course, the GPA is that course's grade point, whatever its credits. |
| Courses.LevelSplit | api/index.py:1047-1048 | For non-negative xp, the level is at least 1 and xp splits into whole thousands plus an in-level remainder from 0 to 999. For any xp, the remainder is less than 1000 in size. |
| Courses.LevelMonotone | api/index.py:1047 | Gaining experience never lowers the level. |
| StudyHall.Start | public/study-hall.js:359-365 | Starting sets the timer running and unpaused. A timer at zero is wound up to the full focus period and its start time recorded. Otherwise the remaining time and the start time are kept. The time bound is kept. |
| StudyHall.Pause | public/study-hall.js:382-387 | Pausing stops the timer, marks it paused and keeps its remaining time. |
| StudyHall.Toggle | public/study-hall.js:351-365 | Toggling flips whether the timer runs. A running timer is paused and keeps its time and start. A stopped timer is unpaused. At zero it is wound up to a full focus period with the start set to now; otherwise it keeps its time and start. |
| StudyHall.ToggleTwice | public/study-hall.js:351-357 | Two presses on a running timer with time left give back the same timer, unpaused. |
| StudyHall.Finish | public/study-hall.js:389-411 | Finishing stops the timer at zero. It records one completed session of the focus length and adds its minutes to the total. Quizzes and the average are untouched. |
| StudyHall.Tick | public/study-hall.js:367-376 | A stopped timer ignores a tick. A running timer counts down one second, or finishes when the time runs out. The time bound is kept. |
| StudyHall.CountsDown | public/study-hall.js:367-376 | While time remains, `n` ticks take exactly `n` seconds off and record nothing. |
| StudyHall.RunsToCompletion | public/study-hall.js:367-411 | A running timer ticked for all its remaining seconds finishes and records exactly one session. |
| StudyHall.TicksSplit | public/study-hall.js:367-376 | `m + n` ticks are `m` ticks followed by `n` ticks. |
| StudyHall.PauseResume | public/study-hall.js:359-387 | Pausing and then starting again resumes with the same remaining time. |
| StudyHall.FormatTimer | public/study-hall.js:413-418 | The display is digits, a colon, then exactly two digits. |
| StudyHall.FormatTimerValue | public/study-hall.js:413-418 | The display reads back as the remaining seconds: minutes times 60 plus seconds, with the seconds below 60. |
| StudyHall.Results | public/study-hall.js:634-644 | There is one result per question. Each result records the answer given, which is undefined past the end of the answers, and the correct answer. It is marked correct exactly when the two are strictly equal. |
| StudyHall.CountCorrect | public/study-hall.js:633-636 | The correct count is at most the number of questions. It equals that number exactly when all are right, and it is zero exactly when none are. |
| StudyHall.QuizScore | public/study-hall.js:646 | The score is NaN exactly when the quiz has no questions. Otherwise it is the correct share as a percentage rounded half up, from 0 to 100. |
| StudyHall.QuizScoreExtremes | public/study-hall.js:646 | All answers right scores 100, and none right scores 0. |
| StudyHall.SumScores | public/study-hall.js:912 | The sum of scores is NaN exactly when one of them is NaN. |
| StudyHall.AverageScore | public/study-hall.js:906-914 | No quizzes gives 0. Otherwise the average is NaN exactly when the sum is, and else it is the mean rounded half up. |
| StudyHall.AverageWithin | public/study-hall.js:906-914 | The average of scores between `lo` and `hi` lies between `lo` and `hi`. |
| StudyHall.SumWithin | public/study-hall.js:912 | A sum of `n` scores between `lo` and `hi` lies between `n*lo` and `n*hi`. |
| StudyHall.GradeQuiz | public/study-hall.js:630-665 | Grading without a current quiz does nothing. Otherwise the record holds the per-question results, the correct count, the total and the rounded score. It is appended to the quizzes, the average is recomputed over all of them, and sessions and minutes are untouched. |
| StudyHall.AllRightScoresFull | public/study-hall.js:633-646 | A non-empty quiz answered entirely correctly scores 100. |
| StudyHall.BandOf | public/study-hall.js:520-536 | The band is "Exceptional mastery!" exactly from 90 up and "Review and try again!" exactly below 60, or for a NaN score. |
| StudyHall.BandMonotone | public/study-hall.js:521-536 | A higher score never lands in a lower band. The bands from 60 to 89 are ten points wide. |
| StudyHall.ExtractJson | public/study-hall.js:604-609 | Let `t` be the trimmed reply. When `t` has its first `{` at `i` and its last `}` at `j`, the result is `t` from position `i` through position `j` if `i < j`, and `t` otherwise. When `t` lacks either brace, the result is `t`. |
| StudyHall.ExtractEmbedded | public/study-hall.js:766-771 | A JSON object surrounded by prose with no braces is extracted exactly. |
| StudyHall.ExtractWithoutBraces | public/study-hall.js:604-609 | A reply without `{` is only trimmed. |
| StudyHall.TrimNoop | public/study-hall.js:604 | Text that neither starts nor ends with white space is unchanged by `trim`. |
| StudyHall.Show | public/study-hall.js:720-732 | Showing a card moves to it, front side up, with the deck unchanged. |
| StudyHall.Prev | public/study-hall.js:702-706 | "Previous" moves back one card, front up, except on the first card, where it does nothing. |
| StudyHall.Next | public/study-hall.js:707-711 | "Next" moves forward one card, front up, except on the last card, where it does nothing. |
| StudyHall.Flip | public/study-hall.js:734-745 | Flipping turns the card over and nothing else. |
| StudyHall.Face | public/study-hall.js:734-745 | The text shown is the back of the current card when it is flipped, and the front otherwise. |
| StudyHall.NewDeck | public/study-hall.js:712-717 | "New deck" empties the deck and returns to the first position. |
| StudyHall.FlipTwice | public/study-hall.js:734-735 | Flipping twice restores the deck. |
| StudyHall.NextThenPrev | public/study-hall.js:702-711 | "Next" then "Previous" returns to the starting card, front up. |
| StudyHall.NextPresses | public/study-hall.js:707-711 | `k` presses of "Next" advance `k` cards, stopping at the last card. |
| Client.GetItem | public/script.js:22 | `getItem` gives the stored text exactly for stored keys, and `null` otherwise. |
| Client.LsGet | public/script.js:21-24 | A missing or empty value gives the fallback, and so does a value that does not parse. Otherwise it gives the parsed value. |
| Client.LsSet | public/script.js:25 | The key then holds the stringified value, and every other key is kept. |
| Client.LsRoundTrip | public/script.js:21-25 | A value whose stringification is non-empty and parses back is read back unchanged. |
| Client.LsSetOthers | public/script.js:21-25 | Writing one key never changes what another key reads. |
| Client.GetToken | public/script.js:27 | The stored token, or `""` when there is none. |
| Client.SetToken | public/script.js:28 | Storing a token writes the token key and keeps every other key. |
| Client.TokenRoundTrip | public/script.js:27-28 | A stored string token reads back as itself. Clearing the token reads back as `""`. Any value handed over reads back as its string form when it is truthy, and as `""` when it is not, such as `null`, `false` or `0`. |
| Client.AuthHeader | public/script.js:41 | An `Authorization` header is sent exactly when the token is non-empty, and its value is `Bearer ` followed by the token. |
| Client.GetPlan | public/script.js:36 | The plan is never empty and never has upper-case letters. It is `associates` when nothing is stored, and otherwise the stored plan lower-cased. |
| Client.SetPlan | public/script.js:37 | The plan key holds the lower-cased plan, or `associates` for an empty one. Other keys are kept. |
| Client.PlanRoundTrip | public/script.js:36-37 | A plan set is read back lower-cased, or as `associates` when it is empty. |
| Client.PlanStable | public/script.js:36-37 | Storing the plan just read changes nothing that is read afterwards. |
| Client.GetStudentId | public/script.js:30-34 | A stored id is returned unchanged. Otherwise `BN-` plus the upper-cased random draw is returned and stored. Afterwards the key always holds the non-empty id returned. |
| Client.StudentIdStable | public/script.js:30-34 | Once an id exists, later calls return it and store nothing, whatever they draw. |
| Client.GeneratedIdShape | public/script.js:32 | A generated id starts with `BN-` and has no lower-case letter. |
| Client.BodyData | public/script.js:42 | A body that does not parse is read as `{}`. |
| Client.ApiCall | public/script.js:39-45 | The call yields data exactly for a 2xx reply, and the data is the parsed body. A network failure is rethrown. |
| Client.ApiErrorMessage | public/script.js:43 | A non-2xx reply throws. The message is the truthy `detail`, or "Request failed", which also covers an unparsable body. A `null` body throws the `TypeError` of reading `detail`. |
| Client.ApiDetailVerbatim | public/script.js:55 | An error body `{detail}` with a non-empty string detail throws exactly that detail. |
| Client.Newest | public/script.js:120 | The kept history has `min(n, 20)` messages. |
| Client.PushBounded | public/script.js:119-120 | After a push, the history is the newest 20 of the old history plus the message, and it ends with the message. |
| Client.NewestIsSuffix | public/script.js:120 | The kept history is a suffix of the full one: only the oldest messages are dropped. |
| Client.SendChat | public/script.js:109-140 | A blank message sends nothing. Otherwise the trimmed user message is pushed, bounded to 20. A successful reply appends the assistant's `reply`, or `""`, bounded again. A failed call or a `null` reply stores only the user message. A plan is returned exactly when the message is sent and the reply is an object whose `plan` is a non-empty string. The plan returned is that string lower-cased. |
| Client.Param | public/script.js:159-160 | A query parameter is absent exactly when no pair has the name. Otherwise its value is the value of the first pair with that name. |
| Client.ParamAfterDelete | public/script.js:159-164 | After deleting a name, that name reads as absent, and every other name reads the same value as before. |
| Client.Delete | public/script.js:164 | Deleting a parameter removes every pair with that name and keeps all the others. |
| Client.DeleteSingle | public/script.js:164 | A single pair is removed exactly when it is under the name. |
| Client.DeleteConcat | public/script.js:164-165 | Deleting distributes over concatenation. The pairs kept therefore stay in their order, each kept once, and that is the query written back to the address. |
| Client.ParseCheckoutSuccess | public/script.js:157-167 | With `checkout=success` and a non-empty `plan`, the plan is stored and `checkout` is removed from the query. Otherwise nothing changes. |
| Client.CheckoutHandledOnce | public/script.js:161-164 | Handling the return URL a second time changes nothing more. |
| Client.CheckoutSetsPlan | public/script.js:161-164 | After a successful return, the stored plan is the lower-cased `plan` parameter, and every pair other than `checkout` is kept. |

## Left out

- Rendering and the DOM are left out: cards, badges, charts, toasts and button states. Alerts are modelled only for `startCheckout`, where their text is part of the result.
- `localStorage` is a map from keys to strings. `fetch` is a function from request to reply. `Date.now()`, `new Date().toISOString()` and `Math.random()` are arguments. The interval timer is a sequence of ticks.
- `uid()` (`public/script.js:19`) is only an argument, `drawn`, to `Client.GetStudentId`. The 24-character hexadecimal shape of the draw is not modelled.
- `Math.round(x / y * 100)` is computed in floating point, but the model uses exact rationals with halves rounded up. The two can differ on rare inputs where the floating-point quotient lands just under a half.
- Fractional JSON numbers are left out: JSON numbers are integers. Grade percentages are `real`, and grade points are kept in tenths.
- Courses.Gpa: the division `totalPoints / totalCredits` is exact over rationals. The source divides, and sums grade points such as 3.7 times credits, in floating point, so its last digits can differ.
- Case mapping covers ASCII letters only. For the `application/json` test this loses nothing.
- URL parsing and percent-decoding are left out. The query is given as decoded name/value pairs.
- `JSON.stringify` is a function argument. The body that `apiPost` sends, and the request headers other than `Authorization`, are not modelled.
- Client.SetPlan: takes a string. A truthy non-string plan makes `toLowerCase` throw. That path is modelled only inside `Client.SendChat`, where the throw is caught.
- Courses.CourseCatalog: in `api/index.py`, line 11 repeats the `anatomy101: {` opening of line 10. The object literal therefore closes one brace short at line 274, the script does not parse, and none of the catalog, enrollment, GPA or achievement code can run as written. The model follows the evident intent: the twelve courses of lines 11-273, in declaration order.
- Courses.FindCourse: `COURSE_CATALOG[id]` also finds the names every object inherits, such as `constructor`, `toString` and `__proto__`. The model finds only the twelve catalog ids.
- Courses.CourseProgress: for an inherited name such as `constructor`, the source throws on `course.assignments.length`. The model answers 0, because the lookup fails.
- Courses.EnrollInCourse: the source enrolls an inherited name such as `constructor` and alerts "enrolled in undefined". The model leaves the record unchanged, because the lookup fails.
- Json.ToJsString: JSON numbers are unbounded integers. `String` prints numbers from 1e21 up in exponent form (`1e+21`). It also rounds integers above 2^53 to the nearest double. Neither is modelled.
- Console output is left out: the `console.log`, `console.warn` and `console.error` calls of `startCheckout`. They have no effect on the result, the alert or the redirect.
- Client.SendChat: the history read from storage is taken as a list of messages. A stored value that is not an array makes `push` throw outside the `try`. That case is not modelled.
- The fetch half of `generateQuiz` and `generateFlashcards` is left out, and so is their parsing beyond `StudyHall.ExtractJson`. `renderQuizReview` is left out too.
- The `startCheckout` variant in `public/script.js` is not part of this model. Neither are `sw.js`, `mock-stripe.js`, `app.js`, `newFile.js`, `dashboard.js` and the Python scripts.
- A failure while reading a reply body (the `response.text()` or `response.json()` promise rejecting) is not modelled. Body texts are given.

=== FILE: base64.dfy ===
/** The browser's `btoa` and `atob` (the forgiving-base64 encode and decode
    of the WHATWG Infra standard) over binary strings: strings
    whose characters all lie in 0..255, one byte each. `atob` is what the
    checkout code applies to the middle segment of a session token. */
module Base64 {
  import opened Wrappers

  /** A character of the base64 alphabet. */
  predicate IsAlphabet(c: char) {
    ('A' <= c <= 'Z') || ('a' <= c <= 'z') || ('0' <= c <= '9') || c == '+' || c == '/'
  }

  /** The value of a base64 digit. */
  function SextetValue(c: char): (v: nat)
    requires IsAlphabet(c)
    ensures v < 64
  {
    if 'A' <= c <= 'Z' then c as int - 'A' as int
    else if 'a' <= c <= 'z' then c as int - 'a' as int + 26
    else if '0' <= c <= '9' then c as int - '0' as int + 52
    else if c == '+' then 62
    else 63
  }

  /** The base64 digit of a six-bit value; `SextetValue` reads it back. */
  function SextetChar(v: nat): (c: char)
    requires v < 64
    ensures IsAlphabet(c) && SextetValue(c) == v
  {
    if v < 26 then ('A' as int + v) as char
    else if v < 52 then ('a' as int + (v - 26)) as char
    else if v < 62 then ('0' as int + (v - 52)) as char
    else if v == 62 then '+'
    else '/'
  }

  /** Every character of `s` is one byte. */
  predicate IsBinary(s: string) {
    forall i :: 0 <= i < |s| ==> s[i] as int < 256
  }

  predicate AllAlphabet(s: string) {
    forall i :: 0 <= i < |s| ==> IsAlphabet(s[i])
  }

  /** The ASCII white space `atob` skips: tab, line feed, form feed, carriage
      return and space. */
  predicate IsAsciiSpace(c: char) {
    c == '\t' || c == '\n' || c as int == 0x0C || c == '\r' || c == ' '
  }

  function RemoveSpace(s: string): (r: string)
    ensures |r| <= |s|
    ensures forall i :: 0 <= i < |r| ==> !IsAsciiSpace(r[i])
  {
    if |s| == 0 then ""
    else if IsAsciiSpace(s[0]) then RemoveSpace(s[1..])
    else [s[0]] + RemoveSpace(s[1..])
  }

  /** When the length is a multiple of four, one or two trailing `=` go. */
  function StripPadding(t: string): string {
    if |t| % 4 != 0 then t
    else if |t| >= 2 && t[|t| - 2] == '=' && t[|t| - 1] == '=' then t[..|t| - 2]
    else if |t| >= 1 && t[|t| - 1] == '=' then t[..|t| - 1]
    else t
  }

  /** The bytes of one group of four digits, or of a final group of two or
      three (whose leftover low bits are dropped). */
  function DecodeGroup(g: string): (r: string)
    requires 2 <= |g| <= 4 && AllAlphabet(g)
    ensures |r| == |g| - 1 && IsBinary(r)
  {
    var a := SextetValue(g[0]);
    var b := SextetValue(g[1]);
    var first := [(a * 4 + b / 16) as char];
    if |g| == 2 then first
    else
      var c := SextetValue(g[2]);
      var second := [((b % 16) * 16 + c / 4) as char];
      if |g| == 3 then first + second
      else first + second + [((c % 4) * 64 + SextetValue(g[3])) as char]
  }

  /** Decodes unpadded base64 digits. */
  function DecodeDigits(t: string): (r: string)
    requires AllAlphabet(t) && |t| % 4 != 1
    ensures IsBinary(r)
  {
    if |t| == 0 then ""
    else if |t| < 4 then DecodeGroup(t)
    else DecodeGroup(t[..4]) + DecodeDigits(t[4..])
  }

  /** `atob(s)`: the decoded binary string, or `None` where `atob` throws
      an `InvalidCharacterError`. */
  function Atob(s: string): (r: Option<string>)
    ensures r.Some? ==> IsBinary(r.value)
  {
    var t := StripPadding(RemoveSpace(s));
    if |t| % 4 == 1 || !AllAlphabet(t) then None
    else Some(DecodeDigits(t))
  }

  /** The four digits of three bytes, or the two or three digits of a final
      one or two bytes. */
  function EncodeGroup(g: string): (r: string)
    requires 1 <= |g| <= 3 && IsBinary(g)
    ensures |r| == |g| + 1 && AllAlphabet(r)
  {
    var x := g[0] as int;
    var y := if |g| >= 2 then g[1] as int else 0;
    var z := if |g| == 3 then g[2] as int else 0;
    var digits := [SextetChar(x / 4), SextetChar((x % 4) * 16 + y / 16),
                   SextetChar((y % 16) * 4 + z / 64), SextetChar(z % 64)];
    digits[..|g| + 1]
  }

  /** The base64 digits of `s`, without padding. */
  function EncodeDigits(s: string): (r: string)
    requires IsBinary(s)
    ensures AllAlphabet(r)
    ensures |s| > 0 ==> |r| > 0
  {
    if |s| == 0 then ""
    else if |s| < 3 then EncodeGroup(s)
    else
      var head := EncodeGroup(s[..3]);
      var tail := EncodeDigits(s[3..]);
      AlphabetConcat(head, tail);
      head + tail
  }

  /** The `=` signs that fill the last group out to four characters. */
  function Padding(n: nat): string {
    if n % 3 == 1 then "==" else if n % 3 == 2 then "=" else ""
  }

  /** `btoa(s)`: the padded base64 text, or `None` where `btoa` throws
      because a character of `s` is not a byte. */
  function Btoa(s: string): (r: Option<string>)
    ensures r.Some? <==> IsBinary(s)
    ensures r.Some? ==> |r.value| % 4 == 0
  {
    if IsBinary(s) then
      WholeGroups(s);
      Some(EncodeDigits(s) + Padding(|s|))
    else None
  }

  lemma AlphabetConcat(a: string, b: string)
    requires AllAlphabet(a) && AllAlphabet(b)
    ensures AllAlphabet(a + b) && |a + b| == |a| + |b|
  {
  }

  /** Every three bytes become four digits and a final one or two bytes
      two or three. */
  lemma {:induction false} EncodedLength(s: string)
    requires IsBinary(s)
    ensures |EncodeDigits(s)| == |s| + (|s| + 2) / 3
    decreases |s|
  {
    if |s| >= 3 {
      EncodedLength(s[3..]);
      assert (|s| + 2) / 3 == (|s| - 1) / 3 + 1;
    }
  }

  /** The digits and padding fill whole groups of four, and the digits alone
      never leave a single digit over. */
  lemma PaddedLength(n: nat, d: nat)
    requires d == n + (n + 2) / 3
    ensures (d + |Padding(n)|) % 4 == 0
    ensures d % 4 != 1
    ensures n % 3 == 0 <==> |Padding(n)| == 0
  {
    var q := n / 3;
    assert n == 3 * q + n % 3;
    if n % 3 == 0 {
      assert d == 4 * q;
    } else if n % 3 == 1 {
      assert d == 4 * q + 2;
    } else {
      assert d == 4 * q + 3;
    }
  }

  /** The padded text is made of whole groups of four. */
  lemma WholeGroups(s: string)
    requires IsBinary(s)
    ensures |EncodeDigits(s) + Padding(|s|)| % 4 == 0
  {
    EncodedLength(s);
    PaddedLength(|s|, |EncodeDigits(s)|);
  }

  /** One group decodes back to the bytes it encodes. */
  lemma GroupRoundTrip(g: string)
    requires 1 <= |g| <= 3 && IsBinary(g)
    ensures DecodeGroup(EncodeGroup(g)) == g
  {
    var e := EncodeGroup(g);
    var x := g[0] as int;
    var y := if |g| >= 2 then g[1] as int else 0;
    var z := if |g| == 3 then g[2] as int else 0;
    assert SextetValue(e[0]) == x / 4;
    assert SextetValue(e[1]) == (x % 4) * 16 + y / 16;
    assert ((x % 4) * 16 + y / 16) / 16 == x % 4;
    assert ((x % 4) * 16 + y / 16) % 16 == y / 16;
    var d := DecodeGroup(e);
    assert d[0] == g[0];
    if |g| >= 2 {
      assert SextetValue(e[2]) == (y % 16) * 4 + z / 64;
      assert ((y % 16) * 4 + z / 64) / 4 == y % 16;
      assert ((y % 16) * 4 + z / 64) % 4 == z / 64;
      assert d[1] == g[1];
    }
    if |g| == 3 {
      assert SextetValue(e[3]) == z % 64;
      assert d[2] == g[2];
    }
  }

  /** The unpadded digits decode back to the bytes. */
  lemma {:induction false} DigitsRoundTrip(s: string)
    requires IsBinary(s)
    ensures |EncodeDigits(s)| % 4 != 1 && DecodeDigits(EncodeDigits(s)) == s
    decreases |s|
  {
    EncodedLength(s);
    PaddedLength(|s|, |EncodeDigits(s)|);
    if |s| == 0 {
    } else if |s| < 3 {
      GroupRoundTrip(s);
    } else {
      var e := EncodeDigits(s);
      var head := EncodeGroup(s[..3]);
      assert e[..4] == head;
      assert e[4..] == EncodeDigits(s[3..]);
      GroupRoundTrip(s[..3]);
      DigitsRoundTrip(s[3..]);
      assert s == s[..3] + s[3..];
    }
  }

  /** Text with no white space is left alone by `RemoveSpace`. */
  lemma {:induction false} RemoveSpaceNoop(t: string)
    requires forall i :: 0 <= i < |t| ==> !IsAsciiSpace(t[i])
    ensures RemoveSpace(t) == t
    decreases |t|
  {
    if |t| > 0 {
      RemoveSpaceNoop(t[1..]);
      assert t == [t[0]] + t[1..];
    }
  }

  /** `atob(btoa(s)) == s` for every binary string: the decoder recovers
      exactly what the encoder was given. */
  lemma AtobBtoa(s: string)
    requires IsBinary(s)
    ensures Atob(Btoa(s).value) == Some(s)
  {
    var text := Btoa(s).value;
    assert forall i :: 0 <= i < |text| ==> IsAlphabet(text[i]) || text[i] == '=';
    RemoveSpaceNoop(text);
    StripEncoded(s);
    DigitsRoundTrip(s);
  }

  /** Stripping the padding of `btoa`'s output leaves exactly its digits. */
  lemma StripEncoded(s: string)
    requires IsBinary(s)
    ensures StripPadding(Btoa(s).value) == EncodeDigits(s)
  {
    var digits := EncodeDigits(s);
    var text := Btoa(s).value;
    assert text == digits + Padding(|s|);
    EncodedLength(s);
    PaddedLength(|s|, |digits|);
    if |s| % 3 == 1 {
      assert text[..|text| - 2] == digits;
    } else if |s| % 3 == 2 {
      assert IsAlphabet(text[|text| - 2]);
      assert text[..|text| - 1] == digits;
    } else if |text| > 0 {
      assert IsAlphabet(text[|text| - 1]);
    }
  }

  /** `btoa` never produces the `.` that separates the segments of a token. */
  lemma BtoaHasNoDot(s: string)
    requires IsBinary(s)
    ensures '.' !in Btoa(s).value
  {
    var text := Btoa(s).value;
    assert forall i :: 0 <= i < |text| ==> IsAlphabet(text[i]) || text[i] == '=';
  }
}

=== FILE: checkout.dfy ===
/** The checkout flow `startCheckout`: validate the chosen plan and cadence,
    read the student's identity from the unverified session token, post the
    request, and turn whatever comes back into exactly one outcome. The
    storage read, the request itself and `JSON.parse` are parameters. */
module Checkout {
  import opened Wrappers
  import opened Json
  import opened Http
  import JsText
  import Base64

  const InvalidSelection := "Invalid plan or cadence selected."
  const UnknownStudent := "BN-UNKNOWN"
  const NoUrlReturned := "No URL returned"
  const FailurePrefix := "Failed to create checkout session. "
  const ErrorPrefix := "An error occurred while opening checkout: "

  /** The JSON body posted to `/api/stripe/create-checkout-session`. */
  datatype Request = Request(plan: string, cadence: string, studentId: Json, email: Json)

  /** What the checkout promise resolves to: `{success: true, url}`,
      `{success: false, message}` when the server answered without a URL, or
      `{success: false, error}` when something was thrown on the way. */
  datatype Outcome = Success(url: Json) | Failure(message: Json) | Error(error: string)

  /** Why a stored token yielded no payload (each is only logged). */
  datatype TokenError =
    | InvalidFormat                 // no non-empty second `.` segment
    | InvalidBase64                 // `atob` threw
    | InvalidJson(message: string)  // `JSON.parse` threw
    | NullPayload(message: string)  // the payload is `null`: reading a field threw

  /** The identity placed in the request. */
  datatype Claims = Claims(studentId: Json, email: Json)

  /** Everything one checkout click produces: the request sent (if any), the
      value the promise resolves to (`None` is `undefined`), the text shown by
      `alert`, and the URL assigned to `location.href`. */
  datatype Checkout = Checkout(sent: Option<Request>, result: Option<Outcome>,
                               alert: Option<string>, redirect: Option<string>)

  // ---------------------------------------------------------------------------
  // Token payload
  // ---------------------------------------------------------------------------

  /** `seg` is the second `.`-separated segment of `token`, whose first `.`
      is at `i`. */
  predicate SegmentAt(token: string, i: int, seg: string) {
    && 0 <= i && i + 1 + |seg| <= |token|
    && token[i] == '.' && '.' !in token[..i]
    && token[i + 1..i + 1 + |seg|] == seg && '.' !in seg
    && (i + 1 + |seg| == |token| || token[i + 1 + |seg|] == '.')
  }

  /** `token.split('.')[1]`, `None` standing for `undefined`. */
  function SecondSegment(token: string): (r: Option<string>)
    ensures r.None? <==> '.' !in token
    ensures r.Some? ==> exists i :: 0 <= i < |token| && SegmentAt(token, i, r.value)
  {
    match JsText.IndexOf(token, '.')
    case None => None
    case Some(i) =>
      var after := token[i + 1..];
      match JsText.IndexOf(after, '.')
      case None =>
        assert SegmentAt(token, i, after);
        Some(after)
      case Some(j) =>
        assert after[..j] == token[i + 1..i + 1 + j];
        assert SegmentAt(token, i, after[..j]);
        Some(after[..j])
  }

  /** The second segment of a token assembled from dot-free parts is the
      middle part. */
  lemma SecondSegmentOf(head: string, seg: string, rest: string)
    requires '.' !in head && '.' !in seg
    requires rest == "" || rest[0] == '.'
    ensures SecondSegment(head + "." + seg + rest) == Some(seg)
  {
    var token := head + "." + seg + rest;
    assert token == head + ['.'] + (seg + rest);
    JsText.IndexOfAfter(head, '.', seg + rest);
    assert token[|head| + 1..] == seg + rest;
    if rest != "" {
      assert seg + rest == seg + ['.'] + rest[1..];
      JsText.IndexOfAfter(seg, '.', rest[1..]);
      assert (seg + rest)[..|seg|] == seg;
    }
  }

  /** The second segment of `token` is non-empty and `atob` turns it into
      `text`. */
  predicate DecodesTo(token: string, text: string) {
    var seg := SecondSegment(token);
    seg.Some? && seg.value != "" && Base64.Atob(seg.value) == Some(text)
  }

  /** The decoded payload of a stored token, or why there is none: a missing
      or empty second segment, a segment `atob` rejects, a text `JSON.parse`
      rejects, or a `null` payload whose fields cannot be read. */
  function Payload(token: string, parse: Parser): (r: Result<Json, TokenError>)
    ensures '.' !in token ==> r == Err(InvalidFormat)
    ensures SecondSegment(token) == Some("") ==> r == Err(InvalidFormat)
    ensures (SecondSegment(token).Some? && SecondSegment(token).value != ""
             && Base64.Atob(SecondSegment(token).value).None?) ==> r == Err(InvalidBase64)
    ensures forall text :: DecodesTo(token, text) ==>
              && (parse(text).SyntaxError? ==> r == Err(InvalidJson(parse(text).message)))
              && (parse(text) == Parsed(JNull) ==> r.Err? && r.error.NullPayload?)
              && (parse(text).Parsed? && !parse(text).value.JNull? ==> r == Ok(parse(text).value))
    ensures r.Ok? ==> !r.value.JNull? && exists text :: DecodesTo(token, text) && parse(text) == Parsed(r.value)
  {
    match SecondSegment(token)
    case None => Err(InvalidFormat)
    case Some(segment) =>
      if segment == "" then Err(InvalidFormat)
      else
        match Base64.Atob(segment)
        case None => Err(InvalidBase64)
        case Some(text) =>
          match parse(text)
          case SyntaxError(m) => Err(InvalidJson(m))
          case Parsed(p) =>
            match Get(p, "student_id")
            case TypeError(m) => Err(NullPayload(m))
            case Value(_) => Ok(p)
  }

  /** The identity used when there is no usable token. */
  const Anonymous := Claims(JString(UnknownStudent), JString(""))

  /** The `student_id` and `email` sent with the request, given what storage
      holds under `botnology_token`: the payload's own values when they are
      truthy, the defaults otherwise, and the defaults for every token that
      cannot be decoded. */
  function ClaimsOf(stored: Option<string>, parse: Parser): (r: Claims)
    ensures stored.None? || stored == Some("") ==> r == Anonymous
    ensures stored.Some? && Payload(stored.value, parse).Err? ==> r == Anonymous
    ensures Truthy(Some(r.studentId))
    ensures r.email == JString("") || Truthy(Some(r.email))
    ensures stored.Some? && stored.value != "" && Payload(stored.value, parse).Ok? ==>
              var p := Payload(stored.value, parse).value;
              && (Truthy(Get(p, "student_id").v) ==> Some(r.studentId) == Get(p, "student_id").v)
              && (!Truthy(Get(p, "student_id").v) ==> r.studentId == JString(UnknownStudent))
              && (Truthy(Get(p, "email").v) ==> Some(r.email) == Get(p, "email").v)
              && (!Truthy(Get(p, "email").v) ==> r.email == JString(""))
  {
    if stored.None? || stored.value == "" then Anonymous
    else
      match Payload(stored.value, parse)
      case Err(_) => Anonymous
      case Ok(p) =>
        Claims(Or(Get(p, "student_id").v, JString(UnknownStudent)),
               Or(Get(p, "email").v, JString("")))
  }

  /** Every way a stored token can fail to decode falls back to the
      anonymous identity: an empty second segment, a segment `atob` rejects,
      a text `JSON.parse` rejects, and a `null` payload. */
  lemma UndecodableTokenAnonymous(token: string, parse: Parser)
    ensures SecondSegment(token) == Some("") ==> ClaimsOf(Some(token), parse) == Anonymous
    ensures (SecondSegment(token).Some? && SecondSegment(token).value != ""
             && Base64.Atob(SecondSegment(token).value).None?) ==> ClaimsOf(Some(token), parse) == Anonymous
    ensures forall text :: DecodesTo(token, text) && (parse(text).SyntaxError? || parse(text) == Parsed(JNull))
              ==> ClaimsOf(Some(token), parse) == Anonymous
  {
  }

  /** A token built the way the browser builds one (`header.` + `btoa` of the
      payload text + `.signature`) yields exactly the payload's `student_id`
      and `email`, whenever both are non-empty strings. */
  lemma TokenRoundTrip(head: string, text: string, signature: string, parse: Parser,
                       studentId: string, email: string)
    requires '.' !in head && text != "" && Base64.IsBinary(text)
    requires parse(text) == Parsed(JObject([("student_id", JString(studentId)), ("email", JString(email))]))
    requires studentId != "" && email != ""
    ensures ClaimsOf(Some(head + "." + Base64.Btoa(text).value + "." + signature), parse)
            == Claims(JString(studentId), JString(email))
  {
    var token := head + "." + Base64.Btoa(text).value + "." + signature;
    var payload := JObject([("student_id", JString(studentId)), ("email", JString(email))]);
    PayloadOfToken(head, text, signature, parse);
    assert token != "";
    assert Lookup(payload.members, "email") == Some(JString(email)) by {
      LookupOverride([("student_id", JString(studentId))], "email", JString(email));
      assert payload.members == [("student_id", JString(studentId))] + [("email", JString(email))];
    }
    assert Lookup(payload.members, "student_id") == Some(JString(studentId)) by {
      assert payload.members[..1] == [("student_id", JString(studentId))];
      assert LastPosition(payload.members, "student_id") == Some(0);
    }
  }

  /** The payload read from such a token is the parsed text. */
  lemma PayloadOfToken(head: string, text: string, signature: string, parse: Parser)
    requires '.' !in head && text != "" && Base64.IsBinary(text)
    requires parse(text).Parsed? && parse(text).value.JObject?
    ensures Payload(head + "." + Base64.Btoa(text).value + "." + signature, parse) == Ok(parse(text).value)
  {
    var encoded := Base64.Btoa(text).value;
    var token := head + "." + encoded + "." + signature;
    Base64.BtoaHasNoDot(text);
    Base64.AtobBtoa(text);
    assert token == head + "." + encoded + ("." + signature);
    SecondSegmentOf(head, encoded, "." + signature);
    assert encoded != "";
  }

  // ---------------------------------------------------------------------------
  // Response classification
  // ---------------------------------------------------------------------------

  /** The header test `(contentType || "").toLowerCase().includes("application/json")`. */
  predicate DeclaresJson(contentType: Option<string>) {
    JsText.Contains(JsText.Lower(contentType.GetOr("")), "application/json")
  }

  /** The fallback message `HTTP {status}`. */
  function HttpStatusText(status: nat): string {
    "HTTP " + JsText.NatToString(status)
  }

  /** The second `.then` step on a 2xx reply's data: redirect to a truthy
      `url`; otherwise report `detail`, or "No URL returned". */
  function Interpret(data: Json): (r: Outcome)
    ensures r.Error? <==> data.JNull?
    ensures r.Success? ==> Some(r.url) == Get(data, "url").v && Truthy(Some(r.url))
    ensures r.Failure? ==> !Truthy(Get(data, "url").v)
                           && r.message == Or(Get(data, "detail").v, JString(NoUrlReturned))
  {
    match Get(data, "url")
    case TypeError(m) => Error(m)
    case Value(url) =>
      if Truthy(url) then Success(url.value)
      else Failure(Or(Get(data, "detail").v, JString(NoUrlReturned)))
  }

  /** The data of a 2xx reply: its body parsed as JSON whatever the declared
      content type, or `{detail: text}` when the body is not JSON. */
  function SuccessData(body: string, parse: Parser): Json {
    match parse(body)
    case Parsed(v) => v
    case SyntaxError(_) => Single("detail", JString(body))
  }

  /** The error thrown for a non-2xx reply. */
  function ErrorMessage(response: Response, parse: Parser): string
    requires !response.ok
  {
    if DeclaresJson(response.contentType) then
      match parse(response.body)
      case SyntaxError(m) => m
      case Parsed(data) =>
        match Get(data, "detail")
        case TypeError(m) => m
        case Value(detail) => ToJsString(Or(detail, JString(HttpStatusText(response.status))))
    else if response.body != "" then response.body
    else HttpStatusText(response.status)
  }

  /** The outcome of a settled request. */
  function Resolve(reply: Reply, parse: Parser): (r: Outcome)
    ensures reply.NetworkError? ==> r == Error(reply.message)
    ensures reply.Received? && !reply.response.ok ==> r.Error?
    ensures r.Failure? ==> reply.Received? && reply.response.ok
  {
    match reply
    case NetworkError(m) => Error(m)
    case Received(response) =>
      if !response.ok then Error(ErrorMessage(response, parse))
      else Interpret(SuccessData(response.body, parse))
  }

  /** The text `alert` shows for an outcome (none on success). */
  function AlertFor(o: Outcome): Option<string> {
    match o
    case Success(_) => None
    case Failure(m) => Some(FailurePrefix + ToJsString(m))
    case Error(e) => Some(ErrorPrefix + e)
  }

  /** The whole of `startCheckout(plan, cadence)`, with `stored` the value of
      `localStorage.getItem("botnology_token")` and `server` the endpoint. */
  function StartCheckout(plan: string, cadence: string, stored: Option<string>,
                         server: Request -> Reply, parse: Parser): (r: Checkout)
    ensures r.sent.None? <==> plan == "" || cadence == ""
    ensures r.sent.None? ==> r == Checkout(None, None, Some(InvalidSelection), None)
    ensures r.sent.Some? ==> && r.sent.value.plan == plan
                             && r.sent.value.cadence == cadence
                             && r.result.Some?
    ensures r.redirect.Some? <==> r.result.Some? && r.result.value.Success?
    ensures r.redirect.Some? ==> r.redirect.value == ToJsString(r.result.value.url)
    ensures r.result.Some? && !r.result.value.Success? ==> r.alert.Some?
    ensures r.result.Some? && r.result.value.Success? ==> r.alert.None?
    ensures r.sent.Some? ==>
              && r.sent.value.studentId == ClaimsOf(stored, parse).studentId
              && r.sent.value.email == ClaimsOf(stored, parse).email
              && r.result == Some(Resolve(server(r.sent.value), parse))
              && r.alert == AlertFor(r.result.value)
  {
    if plan == "" || cadence == "" then
      Checkout(None, None, Some(InvalidSelection), None)
    else
      var claims := ClaimsOf(stored, parse);
      var request := Request(plan, cadence, claims.studentId, claims.email);
      var outcome := Resolve(server(request), parse);
      var redirect := if outcome.Success? then Some(ToJsString(outcome.url)) else None;
      Checkout(Some(request), Some(outcome), AlertFor(outcome), redirect)
  }

  /** Every alert after a request names what went wrong: the error message,
      or the `detail` (else "No URL returned") of a reply without a URL. */
  lemma AlertShowsMessage(plan: string, cadence: string, stored: Option<string>,
                          server: Request -> Reply, parse: Parser)
    ensures var r := StartCheckout(plan, cadence, stored, server, parse);
            && (r.result.Some? && r.result.value.Error? ==>
                  && r.alert == Some(ErrorPrefix + r.result.value.error)
                  && JsText.Contains(r.alert.value, r.result.value.error))
            && (r.result.Some? && r.result.value.Failure? ==>
                  && r.alert == Some(FailurePrefix + ToJsString(r.result.value.message))
                  && JsText.Contains(r.alert.value, ToJsString(r.result.value.message)))
  {
    var r := StartCheckout(plan, cadence, stored, server, parse);
    if r.result.Some? && r.result.value.Error? {
      var e := r.result.value.error;
      JsText.ContainsMiddle(ErrorPrefix, e, "");
      assert ErrorPrefix + e + "" == ErrorPrefix + e;
    }
    if r.result.Some? && r.result.value.Failure? {
      var m := ToJsString(r.result.value.message);
      JsText.ContainsMiddle(FailurePrefix, m, "");
      assert FailurePrefix + m + "" == FailurePrefix + m;
    }
  }

  // ---------------------------------------------------------------------------
  // Properties of the decision table
  // ---------------------------------------------------------------------------

  /** A redirect happens exactly when a 2xx body parses to a value with a
      truthy `url`; a plain-text 2xx body never redirects. */
  lemma SuccessExactly(reply: Reply, parse: Parser)
    ensures Resolve(reply, parse).Success? <==>
              && reply.Received? && reply.response.ok
              && parse(reply.response.body).Parsed?
              && !parse(reply.response.body).value.JNull?
              && Truthy(Get(parse(reply.response.body).value, "url").v)
  {
    if reply.Received? && reply.response.ok {
      var body := reply.response.body;
      if parse(body).SyntaxError? {
        assert Get(SuccessData(body, parse), "url") == Value(None);
      }
      if parse(body).Parsed? && parse(body).value.JNull? {
        assert Interpret(SuccessData(body, parse)).Error?;
      }
    }
  }

  /** For a 2xx reply the outcome is a `Failure` exactly when the data is not
      `null` and has no truthy `url`; its message is `detail`, or "No URL
      returned". A plain-text body becomes its own message. */
  lemma FailureExactly(response: Response, parse: Parser)
    requires response.ok
    ensures parse(response.body).SyntaxError? ==>
              Resolve(Received(response), parse) ==
                Failure(if response.body != "" then JString(response.body) else JString(NoUrlReturned))
    ensures Resolve(Received(response), parse).Failure? <==>
              var data := SuccessData(response.body, parse);
              !data.JNull? && !Truthy(Get(data, "url").v)
  {
  }

  /** Non-2xx replies always end in `Error`. With a JSON content type the
      message is `detail` when truthy and `HTTP {status}` otherwise; a body
      that does not parse gives the parser's message, and a `null` body the
      TypeError of reading its `detail`. Any other content type (or none)
      gives the body text, or `HTTP {status}` when it is empty. */
  lemma ErrorReplies(response: Response, parse: Parser)
    requires !response.ok
    ensures Resolve(Received(response), parse).Error?
    ensures DeclaresJson(response.contentType) && parse(response.body).Parsed?
            && parse(response.body).value.JObject? ==>
              var detail := Lookup(parse(response.body).value.members, "detail");
              Resolve(Received(response), parse).error ==
                (if Truthy(detail) then ToJsString(detail.value) else HttpStatusText(response.status))
    ensures DeclaresJson(response.contentType) && parse(response.body).SyntaxError? ==>
              Resolve(Received(response), parse).error == parse(response.body).message
    ensures DeclaresJson(response.contentType) && parse(response.body) == Parsed(JNull) ==>
              Resolve(Received(response), parse).error == "Cannot read properties of null (reading 'detail')"
    ensures DeclaresJson(response.contentType) && parse(response.body).Parsed?
            && !parse(response.body).value.JObject? && !parse(response.body).value.JNull? ==>
              Resolve(Received(response), parse).error == HttpStatusText(response.status)
    ensures !DeclaresJson(response.contentType) ==>
              Resolve(Received(response), parse).error ==
                (if response.body == "" then HttpStatusText(response.status) else response.body)
  {
  }

  /** Only `detail` is read from an error body: two JSON error bodies with
      the same `detail` produce the same outcome, whatever else they hold. */
  lemma OnlyDetailIsRead(r1: Response, r2: Response, parse: Parser)
    requires !r1.ok && !r2.ok && r1.status == r2.status
    requires DeclaresJson(r1.contentType) && DeclaresJson(r2.contentType)
    requires parse(r1.body).Parsed? && parse(r1.body).value.JObject?
    requires parse(r2.body).Parsed? && parse(r2.body).value.JObject?
    requires Lookup(parse(r1.body).value.members, "detail")
             == Lookup(parse(r2.body).value.members, "detail")
    ensures Resolve(Received(r1), parse) == Resolve(Received(r2), parse)
  {
  }

  /** The content-type test ignores letter case: headers that lower-case alike
      lead to the same outcome. */
  lemma ResolveIgnoresCase(response: Response, contentType: string, parse: Parser)
    requires response.contentType.Some?
    requires JsText.Lower(contentType) == JsText.Lower(response.contentType.value)
    ensures Resolve(Received(response), parse)
            == Resolve(Received(response.(contentType := Some(contentType))), parse)
  {
  }

  /** A header that starts with the JSON media type, in any letter case,
      declares JSON whatever parameters follow it. */
  lemma JsonMediaTypeFirst(mediaType: string, parameters: string)
    requires JsText.Lower(mediaType) == "application/json"
    ensures DeclaresJson(Some(mediaType + parameters))
  {
    JsText.LowerConcat(mediaType, parameters);
    JsText.ContainsMiddle("", "application/json", JsText.Lower(parameters));
    assert "" + "application/json" + JsText.Lower(parameters)
           == JsText.Lower(mediaType + parameters);
  }

  /** The JSON headers of the test suite: plain, capitalised, and with one or
      two parameters. */
  lemma JsonContentTypes()
    ensures DeclaresJson(Some("application/json"))
    ensures DeclaresJson(Some("Application/JSON"))
    ensures DeclaresJson(Some("application/json" + "; charset=utf-8"))
    ensures DeclaresJson(Some("application/json" + "; charset=utf-8; boundary=something"))
  {
    var target := "application/json";
    JsText.LowerFixedPoints(target);
    assert JsText.OccursAt(target, target, 0);
    var capital := "Application/JSON";
    assert JsText.Lower(capital) == target;
    assert JsText.OccursAt(JsText.Lower(capital), target, 0);
    JsonMediaTypeFirst(target, "; charset=utf-8");
    JsonMediaTypeFirst(target, "; charset=utf-8; boundary=something");
  }

  /** A plain-text header, or none at all, is not JSON. */
  lemma NonJsonContentTypes()
    ensures !DeclaresJson(Some("text/plain"))
    ensures !DeclaresJson(Some("text/html"))
    ensures !DeclaresJson(None)
  {
  }

  /** An empty plan or cadence stops the flow before any request: the only
      effect is the validation alert, and the promise resolves to
      `undefined`. */
  lemma ValidationShortCircuits(plan: string, cadence: string, stored: Option<string>,
                                server: Request -> Reply, parse: Parser)
    requires plan == "" || cadence == ""
    ensures StartCheckout(plan, cadence, stored, server, parse)
            == Checkout(None, None, Some(InvalidSelection), None)
  {
  }

  /** A token with no `.` (the suite's `'invalid-token'`) leaves the request
      with the default identity, and the checkout still goes ahead. */
  lemma MalformedTokenUsesDefaults(plan: string, cadence: string, token: string,
                                   server: Request -> Reply, parse: Parser)
    requires plan != "" && cadence != ""
    requires '.' !in token
    ensures var r := StartCheckout(plan, cadence, Some(token), server, parse);
            && r.sent == Some(Request(plan, cadence, JString(UnknownStudent), JString("")))
            && r.result.Some?
  {
  }

  /** A successful JSON reply carrying `{url: u}` redirects to `u`. */
  lemma RedirectsToUrl(response: Response, parse: Parser, url: string)
    requires response.ok && url != ""
    requires parse(response.body) == Parsed(Single("url", JString(url)))
    ensures Resolve(Received(response), parse) == Success(JString(url))
    ensures AlertFor(Success(JString(url))) == None
  {
  }
}

=== FILE: client.dfy ===
/** The helpers of the main page script: reads and writes of browser storage,
    the plan and the student id kept there, the JSON calls to the API and the
    error they raise, the bounded chat history, and the return from a
    completed checkout. Storage is a map from key to stored text; what
    `fetch` returns and what the random id generator draws are parameters. */
module Client {
  import opened Wrappers
  import opened Json
  import opened Http
  import JsText

  /** `localStorage`: `getItem` of a missing key is `null` (`None`). */
  type Storage = map<string, string>

  function GetItem(store: Storage, key: string): (r: Option<string>)
    ensures r.Some? <==> key in store
    ensures r.Some? ==> r.value == store[key]
  {
    if key in store then Some(store[key]) else None
  }

  /** `v || fallback` for a stored string: the empty string is falsy too. */
  function TextOr(v: Option<string>, fallback: string): (r: string)
    ensures v.Some? && v.value != "" ==> r == v.value
    ensures v.None? || v.value == "" ==> r == fallback
  {
    if v.Some? && v.value != "" then v.value else fallback
  }

  // ---------------------------------------------------------------------------
  // Storage
  // ---------------------------------------------------------------------------

  /** `lsGet(key, fallback)`: the parsed stored value, or the fallback when
      nothing (or the empty string) is stored or the text does not parse. */
  function LsGet(store: Storage, key: string, fallback: Json, parse: Parser): (r: Json)
    ensures key !in store || store[key] == "" ==> r == fallback
    ensures key in store && store[key] != "" && parse(store[key]).SyntaxError? ==> r == fallback
    ensures key in store && store[key] != "" && parse(store[key]).Parsed? ==>
              r == parse(store[key]).value
  {
    match GetItem(store, key)
    case None => fallback
    case Some(v) =>
      if v == "" then fallback
      else
        match parse(v)
        case Parsed(j) => j
        case SyntaxError(_) => fallback
  }

  /** `lsSet(key, val)`, with `JSON.stringify` supplied by the caller. */
  function LsSet(store: Storage, key: string, value: Json, stringify: Json -> string): (r: Storage)
    ensures key in r && r[key] == stringify(value)
    ensures forall k :: k in store && k != key ==> k in r && r[k] == store[k]
  {
    store[key := stringify(value)]
  }

  /** What is written with `lsSet` comes back from `lsGet`, given a
      serialiser that `JSON.parse` undoes and that never yields the empty
      text (`JSON.stringify` of a value is at least `0`, `""` or `null`). */
  lemma LsRoundTrip(store: Storage, key: string, value: Json, fallback: Json,
                    parse: Parser, stringify: Json -> string)
    requires stringify(value) != "" && parse(stringify(value)) == Parsed(value)
    ensures LsGet(LsSet(store, key, value, stringify), key, fallback, parse) == value
  {
  }

  /** Writing one key leaves what `lsGet` reads under every other key. */
  lemma LsSetOthers(store: Storage, key: string, other: string, value: Json, fallback: Json,
                    parse: Parser, stringify: Json -> string)
    requires other != key
    ensures LsGet(LsSet(store, key, value, stringify), other, fallback, parse)
            == LsGet(store, other, fallback, parse)
  {
  }

  // ---------------------------------------------------------------------------
  // Token, plan and student id
  // ---------------------------------------------------------------------------

  const TokenKey := "bn_token"
  const PlanKey := "bn_plan"
  const StudentIdKey := "bn_student_id"
  const DefaultPlan := "associates"

  /** `getToken()`: the stored token, or the empty string. */
  function GetToken(store: Storage): (r: string)
    ensures TokenKey in store ==> r == store[TokenKey]
    ensures TokenKey !in store ==> r == ""
  {
    TextOr(GetItem(store, TokenKey), "")
  }

  /** `setToken(t)`: stores `t`, or the empty string for a falsy `t`; a
      non-string value is stored as its string form. */
  function SetToken(store: Storage, t: Option<Json>): (r: Storage)
    ensures TokenKey in r
    ensures forall k :: k in store && k != TokenKey ==> k in r && r[k] == store[k]
  {
    store[TokenKey := if Truthy(t) then ToJsString(t.value) else ""]
  }

  /** A token that is set is the token read back; a missing one reads as
      no token. Whatever the server hands over, the token read back is its
      string form when it is truthy and empty when it is not (`null`,
      `false`, `0`, `""` or absent). */
  lemma TokenRoundTrip(store: Storage, t: string, v: Option<Json>)
    ensures GetToken(SetToken(store, Some(JString(t)))) == t
    ensures GetToken(SetToken(store, None)) == ""
    ensures GetToken(SetToken(store, v)) == if Truthy(v) then ToJsString(v.value) else ""
    ensures GetToken(SetToken(store, Some(JNull))) == ""
    ensures GetToken(SetToken(store, Some(JBool(false)))) == ""
    ensures GetToken(SetToken(store, Some(JNumber(0)))) == ""
  {
  }

  /** `Authorization` header of the API calls: present exactly when a token is. */
  function AuthHeader(token: string): (r: Option<string>)
    ensures r.Some? <==> token != ""
    ensures r.Some? ==> r.value == "Bearer " + token && r.value[7..] == token
  {
    if token != "" then Some("Bearer " + token) else None
  }

  /** `getPlan()`: the stored plan lower-cased, `associates` when none is
      stored. */
  function GetPlan(store: Storage): (r: string)
    ensures r != "" && forall i :: 0 <= i < |r| ==> !JsText.IsUpperAscii(r[i])
    ensures PlanKey !in store || store[PlanKey] == "" ==> r == DefaultPlan
    ensures PlanKey in store && store[PlanKey] != "" ==> r == JsText.Lower(store[PlanKey])
  {
    JsText.Lower(TextOr(GetItem(store, PlanKey), DefaultPlan))
  }

  /** `setPlan(p)` for a string `p`: stores it lower-cased, `associates` for
      the empty string. */
  function SetPlan(store: Storage, p: string): (r: Storage)
    ensures PlanKey in r && r[PlanKey] == JsText.Lower(if p == "" then DefaultPlan else p)
    ensures forall k :: k in store && k != PlanKey ==> k in r && r[k] == store[k]
  {
    store[PlanKey := JsText.Lower(if p == "" then DefaultPlan else p)]
  }

  /** The plan set is the plan read back, in lower case. */
  lemma PlanRoundTrip(store: Storage, p: string)
    ensures GetPlan(SetPlan(store, p)) == JsText.Lower(if p == "" then DefaultPlan else p)
  {
    JsText.LowerIdempotent(if p == "" then DefaultPlan else p);
  }

  /** Writing back the plan read changes nothing that can be read. */
  lemma PlanStable(store: Storage)
    ensures GetPlan(SetPlan(store, GetPlan(store))) == GetPlan(store)
  {
    PlanRoundTrip(store, GetPlan(store));
    JsText.LowerFixedPoints(GetPlan(store));
  }

  /** `getStudentId()`: the stored id; otherwise `BN-` and the upper-cased
      id `uid()` draws (`drawn`), which is stored as well. */
  function GetStudentId(store: Storage, drawn: string): (r: (string, Storage))
    ensures StudentIdKey in store && store[StudentIdKey] != "" ==> r == (store[StudentIdKey], store)
    ensures StudentIdKey !in store || store[StudentIdKey] == "" ==>
              && r.0 == "BN-" + JsText.Upper(drawn)
              && r.1 == store[StudentIdKey := r.0]
    ensures StudentIdKey in r.1 && r.1[StudentIdKey] == r.0 && r.0 != ""
  {
    match GetItem(store, StudentIdKey)
    case Some(id) =>
      if id != "" then (id, store)
      else var id := "BN-" + JsText.Upper(drawn); (id, store[StudentIdKey := id])
    case None =>
      var id := "BN-" + JsText.Upper(drawn);
      (id, store[StudentIdKey := id])
  }

  /** Once an id is handed out every later call returns it, whatever the
      generator would draw. */
  lemma StudentIdStable(store: Storage, drawn: string, later: string)
    ensures var first := GetStudentId(store, drawn);
            GetStudentId(first.1, later) == first
  {
  }

  /** A generated id starts with `BN-` and has no lower-case letter. */
  lemma GeneratedIdShape(store: Storage, drawn: string)
    requires StudentIdKey !in store
    ensures var id := GetStudentId(store, drawn).0;
            |id| >= 3 && id[..3] == "BN-" && forall i :: 0 <= i < |id| ==> !JsText.IsLowerAscii(id[i])
  {
  }

  // ---------------------------------------------------------------------------
  // API calls
  // ---------------------------------------------------------------------------

  /** How `apiGet`/`apiPost` settle: with the response data, or by throwing
      an error with the given message. */
  datatype ApiResult = Data(value: Json) | Thrown(message: string)

  const RequestFailed := "Request failed"

  /** `await res.json().catch(() => ({}))`: the body parsed, or an empty object. */
  function BodyData(body: string, parse: Parser): (r: Json)
    ensures parse(body).Parsed? ==> r == parse(body).value
    ensures parse(body).SyntaxError? ==> r == JObject([])
  {
    match parse(body)
    case Parsed(j) => j
    case SyntaxError(_) => JObject([])
  }

  /** The settlement of `apiGet(url)` and of `apiPost(url, body)`, which treat
      the reply identically. A rejected `fetch` passes its error through. */
  function ApiCall(reply: Reply, parse: Parser): (r: ApiResult)
    ensures r.Data? <==> reply.Received? && reply.response.ok
    ensures r.Data? ==> r.value == BodyData(reply.response.body, parse)
    ensures reply.NetworkError? ==> r == Thrown(reply.message)
  {
    match reply
    case NetworkError(m) => Thrown(m)
    case Received(res) =>
      var data := BodyData(res.body, parse);
      if res.ok then Data(data)
      else
        match Get(data, "detail")
        case TypeError(m) => Thrown(m)
        case Value(d) => Thrown(if Truthy(d) then ToJsString(d.value) else RequestFailed)
  }

  /** The error of a refused request: the `detail` the server sent when it is
      truthy, `Request failed` when it is missing or falsy (an unparsable body
      included), and a `TypeError` when the body is `null`. */
  lemma ApiErrorMessage(res: Response, parse: Parser)
    requires !res.ok
    ensures var data := BodyData(res.body, parse);
            var r := ApiCall(Received(res), parse);
            && (data.JNull? ==> r == Thrown("Cannot read properties of null (reading 'detail')"))
            && (data.JObject? && Truthy(Lookup(data.members, "detail")) ==>
                  r == Thrown(ToJsString(Lookup(data.members, "detail").value)))
            && (data.JObject? && !Truthy(Lookup(data.members, "detail")) ==> r == Thrown(RequestFailed))
            && (parse(res.body).SyntaxError? ==> r == Thrown(RequestFailed))
  {
  }

  /** A string `detail` is the message word for word. */
  lemma ApiDetailVerbatim(res: Response, parse: Parser, detail: string)
    requires !res.ok && detail != ""
    requires parse(res.body) == Parsed(Single("detail", JString(detail)))
    ensures ApiCall(Received(res), parse) == Thrown(detail)
  {
  }

  // ---------------------------------------------------------------------------
  // Chat history
  // ---------------------------------------------------------------------------

  /** A chat history entry; the content is whatever the reply held. */
  datatype Msg = Msg(role: string, content: Json)

  const HistoryLimit := 20

  /** The newest `HistoryLimit` entries of `h`. */
  function Newest(h: seq<Msg>): (r: seq<Msg>)
    ensures |r| <= HistoryLimit
    ensures |r| == if |h| > HistoryLimit then HistoryLimit else |h|
  {
    if |h| > HistoryLimit then h[|h| - HistoryLimit..] else h
  }

  /** `h.push(m); while (h.length > 20) h.shift();` */
  method PushBounded(h: seq<Msg>, m: Msg) returns (r: seq<Msg>)
    ensures r == Newest(h + [m])
    ensures |r| <= HistoryLimit && |r| > 0 && r[|r| - 1] == m
  {
    r := h + [m];
    ghost var full := h + [m];
    while |r| > HistoryLimit
      invariant |r| > 0 && r == full[|full| - |r|..]
      invariant |r| >= if |full| > HistoryLimit then HistoryLimit else |full|
      decreases |r|
    {
      r := r[1..];
    }
  }

  /** Bounding keeps order: the entries kept are the latest ones, and the
      ones dropped are the oldest. */
  lemma NewestIsSuffix(h: seq<Msg>)
    ensures h == h[..|h| - |Newest(h)|] + Newest(h)
  {
  }

  /** The chat reply names a new plan: its `plan` is a non-empty string. Any
      other truthy `plan` makes `setPlan` throw on `toLowerCase`. */
  predicate StringPlan(v: Json) {
    && v.JObject?
    && Truthy(Lookup(v.members, "plan"))
    && Lookup(v.members, "plan").value.JString?
  }

  /** `sendChat()`, given the typed text, the stored history and how the
      chat call settles. Nothing happens for blank text. Otherwise the user
      message joins the history; a reply that arrives joins it as well (an
      absent reply as the empty string), and a truthy string `plan` in it is
      the plan to store. `None` for the plan means the stored plan is kept. */
  method SendChat(input: string, h: seq<Msg>, out: ApiResult)
    returns (sent: bool, history: seq<Msg>, plan: Option<string>)
    ensures sent <==> JsText.Trim(input) != ""
    ensures !sent ==> history == h && plan.None?
    ensures sent ==> |history| <= HistoryLimit
    ensures sent && (out.Thrown? || out.value.JNull?) ==>
              history == Newest(h + [Msg("user", JString(JsText.Trim(input)))]) && plan.None?
    ensures sent && out.Data? && !out.value.JNull? ==>
              var reply := Or(Get(out.value, "reply").v, JString(""));
              && history == Newest(Newest(h + [Msg("user", JString(JsText.Trim(input)))]) + [Msg("assistant", reply)])
              && history[|history| - 1] == Msg("assistant", reply)
    ensures plan.Some? <==> sent && out.Data? && StringPlan(out.value)
    ensures plan.Some? ==> && out.Data? && out.value.JObject?
                           && plan.value == JsText.Lower(Lookup(out.value.members, "plan").value.s)
                           && plan.value == JsText.Lower(plan.value)
  {
    var msg := JsText.Trim(input);
    if msg == "" {
      return false, h, None;
    }
    sent := true;
    history := PushBounded(h, Msg("user", JString(msg)));
    plan := None;
    match out {
      case Thrown(_) =>
      case Data(o) =>
        match Get(o, "reply") {
          case TypeError(_) =>
          case Value(r) =>
            history := PushBounded(history, Msg("assistant", Or(r, JString(""))));
            match Get(o, "plan") {
              case TypeError(_) =>
              case Value(p) =>
                if Truthy(p) && p.value.JString? {
                  JsText.LowerIdempotent(p.value.s);
                  plan := Some(JsText.Lower(p.value.s));
                }
            }
        }
    }
  }

  // ---------------------------------------------------------------------------
  // Return from checkout
  // ---------------------------------------------------------------------------

  /** The decoded query of the page URL, in order. */
  type Query = seq<(string, string)>

  /** The pair at `i` is the first one under `name`. */
  predicate FirstNamed(q: Query, name: string, i: int) {
    && 0 <= i < |q|
    && q[i].0 == name
    && forall j :: 0 <= j < i ==> q[j].0 != name
  }

  /** The position of the first pair under `name`. */
  function FirstPosition(q: Query, name: string): (r: Option<nat>)
    ensures r.None? <==> forall i :: 0 <= i < |q| ==> q[i].0 != name
    ensures r.Some? ==> FirstNamed(q, name, r.value)
  {
    if |q| == 0 then None
    else if q[0].0 == name then Some(0)
    else
      match FirstPosition(q[1..], name)
      case None => None
      case Some(i) => Some(i + 1)
  }

  /** `searchParams.get(name)`: the first value under `name`. */
  function Param(q: Query, name: string): (r: Option<string>)
    ensures r.None? <==> forall i :: 0 <= i < |q| ==> q[i].0 != name
    ensures r.Some? ==> exists i :: FirstNamed(q, name, i) && q[i].1 == r.value
  {
    match FirstPosition(q, name)
    case None => None
    case Some(i) => Some(q[i].1)
  }

  /** `searchParams.delete(name)`: every pair under `name` goes, the rest
      stay in order. */
  function Delete(q: Query, name: string): (r: Query)
    ensures forall i :: 0 <= i < |r| ==> r[i].0 != name
    ensures forall p :: p in r <==> p in q && p.0 != name
    ensures |r| <= |q|
  {
    if |q| == 0 then []
    else if q[0].0 == name then Delete(q[1..], name)
    else [q[0]] + Delete(q[1..], name)
  }

  /** Deleting one name leaves it with no value and leaves the value every
      other name reads unchanged. */
  lemma {:induction false} ParamAfterDelete(q: Query, name: string, other: string)
    ensures Param(Delete(q, name), name).None?
    ensures other != name ==> Param(Delete(q, name), other) == Param(q, other)
    decreases |q|
  {
    if |q| > 0 {
      ParamAfterDelete(q[1..], name, other);
      if q[0].0 != name {
        var d := Delete(q, name);
        assert d == [q[0]] + Delete(q[1..], name);
        assert d[1..] == Delete(q[1..], name);
      }
    }
  }

  /** A single pair goes exactly when it is under `name`. */
  lemma DeleteSingle(p: (string, string), name: string)
    ensures Delete([p], name) == if p.0 == name then [] else [p]
  {
    assert [p][1..] == [];
  }

  /** Deleting works pair by pair: it distributes over concatenation, so the
      pairs kept stay in their order and each is kept once. */
  lemma {:induction false} DeleteConcat(a: Query, b: Query, name: string)
    ensures Delete(a + b, name) == Delete(a, name) + Delete(b, name)
    decreases |a|
  {
    if |a| == 0 {
      assert a + b == b;
    } else {
      assert (a + b)[1..] == a[1..] + b;
      assert (a + b)[0] == a[0];
      DeleteConcat(a[1..], b, name);
    }
  }

  /** `parseCheckoutSuccess()`: after a successful checkout that names a plan,
      the plan is stored and the `checkout` marker leaves the address;
      otherwise nothing changes. */
  function ParseCheckoutSuccess(q: Query, store: Storage): (r: (Query, Storage))
    ensures var go := Param(q, "checkout") == Some("success") && Param(q, "plan").Some?
                      && Param(q, "plan").value != "";
            && (go ==> r == (Delete(q, "checkout"), SetPlan(store, Param(q, "plan").value)))
            && (!go ==> r == (q, store))
  {
    var ok := Param(q, "checkout");
    var plan := Param(q, "plan");
    if ok == Some("success") && plan.Some? && plan.value != "" then
      (Delete(q, "checkout"), SetPlan(store, plan.value))
    else (q, store)
  }

  /** The marker is consumed: running the handler again changes nothing. */
  lemma CheckoutHandledOnce(q: Query, store: Storage)
    ensures var once := ParseCheckoutSuccess(q, store);
            ParseCheckoutSuccess(once.0, once.1) == once
  {
    var once := ParseCheckoutSuccess(q, store);
    if once.0 != q {
      assert Param(once.0, "checkout").None?;
    }
  }

  /** After a successful checkout the plan read back is the one in the
      address, lower-cased, and every other parameter stays. */
  lemma CheckoutSetsPlan(q: Query, store: Storage, plan: string)
    requires Param(q, "checkout") == Some("success") && Param(q, "plan") == Some(plan) && plan != ""
    ensures GetPlan(ParseCheckoutSuccess(q, store).1) == JsText.Lower(plan)
    ensures forall p :: p in q && p.0 != "checkout" ==> p in ParseCheckoutSuccess(q, store).0
  {
    PlanRoundTrip(store, plan);
  }
}

=== FILE: courses.dfy ===
/** The course system of the student dashboard: the catalog and its tier
    gating, enrollment, course progress, grade points and the credit-weighted
    GPA, achievements with their experience points, and the level derived
    from those points. The state is the `studentData` record; every
    operation returns its new value instead of updating it in place. */
module Courses {
  import opened Wrappers
  import JsMath

  /** A catalog entry; `assignmentCount` is the length of its assignment list. */
  datatype Course = Course(id: string, code: string, title: string, category: string,
                           tier: string, credits: nat, assignmentCount: nat)

  /** A completed assignment; the course it belongs to is all the modelled
      code reads of it. */
  datatype Completion = Completion(courseId: string)

  /** A course grade: the percentage, its letter, and the graded work (no
      modelled operation puts anything in that list). */
  datatype Grade = Grade(current: real, letter: string, assignments: seq<string>)

  datatype Achievement = Achievement(id: string, title: string, xp: nat)

  /** `studentData`. `level` is stored but never written: the level shown is
      always recomputed from `xp`. */
  datatype StudentData = StudentData(enrolled: seq<string>, completed: seq<Completion>,
                                     grades: map<string, Grade>, achievements: seq<string>,
                                     xp: int, level: int)

  /** The state of a student who has done nothing yet. */
  const NewStudent := StudentData([], [], map[], [], 0, 1)

  /** `COURSE_CATALOG`, in declaration order. The literal opens `anatomy101`
      twice; this is the twelve-course catalog it evidently means. */
  const CourseCatalog: seq<Course> := [
    Course("anatomy101", "ANAT-101", "Human Anatomy Fundamentals", "anatomy", "associates", 4, 3),
    Course("anatomy201", "ANAT-201", "Advanced Human Anatomy", "anatomy", "bachelors", 4, 2),
    Course("anatomy301", "ANAT-301", "Clinical Anatomy & Research", "anatomy", "masters", 5, 2),
    Course("calc1", "MATH-141", "Calculus I: Limits & Derivatives", "math", "associates", 4, 3),
    Course("calc2", "MATH-142", "Calculus II: Integration & Series", "math", "bachelors", 4, 2),
    Course("calc3", "MATH-241", "Calculus III: Multivariable", "math", "masters", 4, 2),
    Course("trig101", "MATH-110", "Trigonometry Fundamentals", "math", "associates", 3, 2),
    Course("physics101", "PHYS-101", "Physics I: Mechanics", "physics", "associates", 4, 2),
    Course("physics201", "PHYS-201", "Physics II: Electricity & Magnetism", "physics", "bachelors", 4, 2),
    Course("chem101", "CHEM-101", "General Chemistry I", "chemistry", "associates", 4, 2),
    Course("chem201", "CHEM-201", "Organic Chemistry I", "chemistry", "bachelors", 4, 2),
    Course("bio101", "BIOL-101", "Introduction to Biology", "biology", "associates", 4, 2)
  ]

  /** `ACHIEVEMENTS`. */
  const AchievementList: seq<Achievement> := [
    Achievement("first_enrollment", "First Step", 100),
    Achievement("quiz_master", "Quiz Master", 250),
    Achievement("assignment_ace", "Assignment Ace", 500),
    Achievement("perfect_week", "Perfect Week", 300),
    Achievement("course_complete", "Course Champion", 1000),
    Achievement("gpa_4", "Perfect GPA", 2000),
    Achievement("study_streak", "Dedicated Scholar", 400)
  ]

  const FirstEnrollment := "first_enrollment"

  // ---------------------------------------------------------------------------
  // Catalog
  // ---------------------------------------------------------------------------

  /** The first element of `xs` whose key is `id`. */
  function FindBy<T>(xs: seq<T>, key: T -> string, id: string): (r: Option<T>)
    ensures r.None? <==> forall i :: 0 <= i < |xs| ==> key(xs[i]) != id
    ensures r.Some? ==> r.value in xs && key(r.value) == id
  {
    if |xs| == 0 then None
    else if key(xs[0]) == id then Some(xs[0])
    else FindBy(xs[1..], key, id)
  }

  /** `COURSE_CATALOG[id]`: the course declared under `id`. */
  function FindCourse(catalog: seq<Course>, id: string): Option<Course> {
    FindBy(catalog, (c: Course) => c.id, id)
  }

  /** A catalog the dashboard can compute with: positive credits and at least
      one assignment per course. */
  predicate ValidCatalog(catalog: seq<Course>) {
    forall i :: 0 <= i < |catalog| ==> catalog[i].credits > 0 && catalog[i].assignmentCount > 0
  }

  lemma CourseCatalogValid()
    ensures ValidCatalog(CourseCatalog)
  {
  }

  /** A course found in a valid catalog has credits and assignments. */
  lemma FoundValid(catalog: seq<Course>, id: string)
    requires ValidCatalog(catalog) && FindCourse(catalog, id).Some?
    ensures FindCourse(catalog, id).value.credits > 0
    ensures FindCourse(catalog, id).value.assignmentCount > 0
  {
    var k :| 0 <= k < |catalog| && catalog[k] == FindCourse(catalog, id).value;
  }

  /** `tierOrder[tier]`; `None` is `undefined`, for any other string. */
  function TierOrder(tier: string): (r: Option<nat>)
    ensures r.Some? <==> tier in {"associates", "bachelors", "masters"}
    ensures r.Some? ==> 1 <= r.value <= 3
  {
    if tier == "associates" then Some(1)
    else if tier == "bachelors" then Some(2)
    else if tier == "masters" then Some(3)
    else None
  }

  /** The tier filter of `renderCourseCatalog`: a course is skipped only when
      `courseTierLevel > userTierLevel`. A comparison with `undefined` is
      false, so a plan that is not one of the three tiers hides nothing. */
  predicate Shown(course: Course, plan: string) {
    match (TierOrder(course.tier), TierOrder(plan))
    case (Some(c), Some(u)) => c <= u
    case _ => true
  }

  /** A catalog card: the course and whether the student is enrolled in it. */
  datatype Card = Card(course: Course, enrolled: bool)

  /** The cards `renderCourseCatalog` appends, in catalog order. */
  function CatalogCards(catalog: seq<Course>, plan: string, enrolled: seq<string>): (cards: seq<Card>)
    ensures |cards| <= |catalog|
    ensures forall c :: c in catalog && Shown(c, plan) <==> Card(c, c.id in enrolled) in cards
    ensures forall k :: 0 <= k < |cards| ==>
              && cards[k].course in catalog && Shown(cards[k].course, plan)
              && cards[k].enrolled == (cards[k].course.id in enrolled)
  {
    if |catalog| == 0 then []
    else
      var rest := CatalogCards(catalog[1..], plan, enrolled);
      var c := catalog[0];
      if Shown(c, plan) then [Card(c, c.id in enrolled)] + rest else rest
  }

  /** Gating by tier: on a known plan, a catalog course of a known tier gets
      a card exactly when its tier is the plan's or below. */
  lemma TierGating(catalog: seq<Course>, c: Course, plan: string, enrolled: seq<string>)
    requires TierOrder(c.tier).Some? && TierOrder(plan).Some?
    ensures Card(c, c.id in enrolled) in CatalogCards(catalog, plan, enrolled) <==>
              c in catalog && TierOrder(c.tier).value <= TierOrder(plan).value
  {
  }

  /** A higher plan sees every course a lower plan sees. */
  lemma {:induction false} HigherTierSeesMore(catalog: seq<Course>, lower: string, higher: string,
                                                enrolled: seq<string>)
    requires TierOrder(lower).Some? && TierOrder(higher).Some?
    requires TierOrder(lower).value <= TierOrder(higher).value
    ensures forall card :: card in CatalogCards(catalog, lower, enrolled) ==>
              card in CatalogCards(catalog, higher, enrolled)
  {
    forall card | card in CatalogCards(catalog, lower, enrolled)
      ensures card in CatalogCards(catalog, higher, enrolled)
    {
      var k :| 0 <= k < |CatalogCards(catalog, lower, enrolled)|
               && CatalogCards(catalog, lower, enrolled)[k] == card;
      assert Shown(card.course, higher);
    }
  }

  /** A plan outside the three tiers (say `"Masters"`, or an empty one) sees
      the whole catalog, masters courses included. */
  lemma {:induction false} UnknownPlanSeesAll(catalog: seq<Course>, plan: string, enrolled: seq<string>)
    requires TierOrder(plan).None?
    ensures |CatalogCards(catalog, plan, enrolled)| == |catalog|
    decreases |catalog|
  {
    if |catalog| > 0 {
      UnknownPlanSeesAll(catalog[1..], plan, enrolled);
    }
  }

  // ---------------------------------------------------------------------------
  // Progress
  // ---------------------------------------------------------------------------

  /** How many completed assignments belong to course `id`. */
  function CountFor(completed: seq<Completion>, id: string): (n: nat)
    ensures n <= |completed|
    ensures n == 0 <==> forall i :: 0 <= i < |completed| ==> completed[i].courseId != id
  {
    if |completed| == 0 then 0
    else (if completed[0].courseId == id then 1 else 0) + CountFor(completed[1..], id)
  }

  /** `calculateCourseProgress(id)`: 0 for an id the catalog does not know;
      otherwise the share of the course's assignments completed, as a
      percentage rounded half up. */
  function CourseProgress(catalog: seq<Course>, s: StudentData, id: string): (r: int)
    requires ValidCatalog(catalog)
    ensures FindCourse(catalog, id).None? ==> r == 0
    ensures FindCourse(catalog, id).Some? ==>
              var n := FindCourse(catalog, id).value.assignmentCount;
              var done := CountFor(s.completed, id);
              n * (2 * r - 1) <= 200 * done < n * (2 * r + 1)
    ensures r >= 0
  {
    match FindCourse(catalog, id)
    case None => 0
    case Some(course) =>
      FoundValid(catalog, id);
      var n := course.assignmentCount;
      var r := JsMath.RoundDiv(100 * CountFor(s.completed, id), n);
      JsMath.MulOrder(n, 2 * r + 1, 0);
      r
  }

  /** Progress reaches 100% once every assignment is done, and no further
      while the completions recorded do not outnumber the assignments. */
  lemma ProgressBounds(catalog: seq<Course>, s: StudentData, id: string)
    requires ValidCatalog(catalog) && FindCourse(catalog, id).Some?
    ensures var n := FindCourse(catalog, id).value.assignmentCount;
            var done := CountFor(s.completed, id);
            && (done == n ==> CourseProgress(catalog, s, id) == 100)
            && (done <= n ==> CourseProgress(catalog, s, id) <= 100)
            && (done == 0 ==> CourseProgress(catalog, s, id) == 0)
  {
    var n := FindCourse(catalog, id).value.assignmentCount;
    var done := CountFor(s.completed, id);
    FoundValid(catalog, id);
    if done <= n {
      JsMath.RoundDivBetween(100 * done, n, 0, 100);
    }
    if done == n {
      JsMath.RoundDivUnique(100 * done, n, 100);
    }
    if done == 0 {
      JsMath.RoundDivUnique(0, n, 0);
    }
  }

  // ---------------------------------------------------------------------------
  // Achievements and experience
  // ---------------------------------------------------------------------------

  /** `ACHIEVEMENTS.find(a => a.id === id)`. */
  function FindAchievement(defs: seq<Achievement>, id: string): Option<Achievement> {
    FindBy(defs, (a: Achievement) => a.id, id)
  }

  /** `awardAchievement(id)`: an id already earned, or one no achievement
      has, changes nothing; otherwise the id is recorded once and its points
      are added to `xp`. */
  function AwardAchievement(defs: seq<Achievement>, s: StudentData, id: string): (r: StudentData)
    ensures id in s.achievements || FindAchievement(defs, id).None? ==> r == s
    ensures id !in s.achievements && FindAchievement(defs, id).Some? ==>
              && r.achievements == s.achievements + [id]
              && r.xp == s.xp + FindAchievement(defs, id).value.xp
              && r == s.(achievements := r.achievements, xp := r.xp)
    ensures id in r.achievements || FindAchievement(defs, id).None?
  {
    if id in s.achievements then s
    else
      match FindAchievement(defs, id)
      case None => s
      case Some(a) => s.(achievements := s.achievements + [id], xp := s.xp + a.xp)
  }

  /** Awarding twice is awarding once. */
  lemma AwardIdempotent(defs: seq<Achievement>, s: StudentData, id: string)
    ensures AwardAchievement(defs, AwardAchievement(defs, s, id), id) == AwardAchievement(defs, s, id)
  {
  }

  predicate NoDuplicates(xs: seq<string>) {
    forall i, j :: 0 <= i < j < |xs| ==> xs[i] != xs[j]
  }

  /** The points of the achievements named in `ids`. */
  function EarnedXp(defs: seq<Achievement>, ids: seq<string>): int {
    if |ids| == 0 then 0
    else EarnedXp(defs, ids[..|ids| - 1]) +
         (match FindAchievement(defs, ids[|ids| - 1]) case Some(a) => a.xp case None => 0)
  }

  /** The experience bookkeeping is sound: each achievement is earned at
      most once and `xp` is exactly the sum of the points of those earned. */
  predicate XpAccounted(defs: seq<Achievement>, s: StudentData) {
    NoDuplicates(s.achievements) && s.xp == EarnedXp(defs, s.achievements)
  }

  /** Awarding keeps the experience bookkeeping sound. */
  lemma AwardKeepsXpAccounted(defs: seq<Achievement>, s: StudentData, id: string)
    requires XpAccounted(defs, s)
    ensures XpAccounted(defs, AwardAchievement(defs, s, id))
  {
    var r := AwardAchievement(defs, s, id);
    if r != s {
      assert r.achievements[..|r.achievements| - 1] == s.achievements;
    }
  }

  lemma NewStudentXpAccounted(defs: seq<Achievement>)
    ensures XpAccounted(defs, NewStudent)
  {
  }

  // ---------------------------------------------------------------------------
  // Enrollment
  // ---------------------------------------------------------------------------

  /** A fresh course grade. */
  const Ungraded := Grade(0.0, "N/A", [])

  /** `enrollInCourse(id)`: an id outside the catalog, or a course already
      enrolled in, leaves the state as it was; otherwise the id is appended
      once, its grade starts over, and the very first enrollment earns
      `first_enrollment`. */
  function EnrollInCourse(catalog: seq<Course>, defs: seq<Achievement>, s: StudentData, id: string): (r: StudentData)
    ensures FindCourse(catalog, id).None? || id in s.enrolled ==> r == s
    ensures FindCourse(catalog, id).Some? && id !in s.enrolled ==>
              && r.enrolled == s.enrolled + [id]
              && r.grades == s.grades[id := Ungraded]
              && r.completed == s.completed
              && r.level == s.level
    ensures FindCourse(catalog, id).Some? && id !in s.enrolled && |s.enrolled| == 0 ==>
              && FirstEnrollment !in s.achievements
              && FindAchievement(defs, FirstEnrollment).Some?
              ==> && r.achievements == s.achievements + [FirstEnrollment]
                  && r.xp == s.xp + FindAchievement(defs, FirstEnrollment).value.xp
    ensures |s.enrolled| > 0 ==> r.achievements == s.achievements && r.xp == s.xp
    ensures (FirstEnrollment in s.achievements || FindAchievement(defs, FirstEnrollment).None?) ==>
              r.achievements == s.achievements && r.xp == s.xp
  {
    if FindCourse(catalog, id).None? then s
    else if id in s.enrolled then s
    else
      var s1 := s.(enrolled := s.enrolled + [id], grades := s.grades[id := Ungraded]);
      if |s1.enrolled| == 1 then AwardAchievement(defs, s1, FirstEnrollment) else s1
  }

  /** What enrollment keeps true: no course twice, every enrolled course in
      the catalog and holding a grade. */
  predicate EnrollmentSound(catalog: seq<Course>, s: StudentData) {
    && NoDuplicates(s.enrolled)
    && forall i :: 0 <= i < |s.enrolled| ==>
         FindCourse(catalog, s.enrolled[i]).Some? && s.enrolled[i] in s.grades
  }

  lemma EnrollKeepsSound(catalog: seq<Course>, defs: seq<Achievement>, s: StudentData, id: string)
    requires EnrollmentSound(catalog, s)
    ensures EnrollmentSound(catalog, EnrollInCourse(catalog, defs, s, id))
  {
  }

  /** Enrolling again in the same course changes nothing. */
  lemma EnrollIdempotent(catalog: seq<Course>, defs: seq<Achievement>, s: StudentData, id: string)
    ensures var once := EnrollInCourse(catalog, defs, s, id);
            EnrollInCourse(catalog, defs, once, id) == once
  {
  }

  // ---------------------------------------------------------------------------
  // Grade points and GPA
  // ---------------------------------------------------------------------------

  /** `percentageToGradePoint`, in tenths of a grade point (4.0 is 40). */
  function GradePoint(percentage: real): (g: nat)
    ensures g <= 40
    ensures percentage < 65.0 <==> g == 0
    ensures percentage >= 93.0 <==> g == 40
  {
    if percentage >= 93.0 then 40
    else if percentage >= 90.0 then 37
    else if percentage >= 87.0 then 33
    else if percentage >= 83.0 then 30
    else if percentage >= 80.0 then 27
    else if percentage >= 77.0 then 23
    else if percentage >= 73.0 then 20
    else if percentage >= 70.0 then 17
    else if percentage >= 67.0 then 13
    else if percentage >= 65.0 then 10
    else 0
  }

  /** A higher percentage never earns fewer grade points. */
  lemma GradePointMonotone(p: real, q: real)
    requires p <= q
    ensures GradePoint(p) <= GradePoint(q)
  {
  }

  /** The course counts towards the GPA: it has a grade above zero. */
  predicate Graded(grades: map<string, Grade>, id: string) {
    id in grades && grades[id].current > 0.0
  }

  /** The sums the GPA is made of, over the enrolled ids: grade points
      (tenths) times credits, and credits, for the graded courses; `None`
      where reading the credits of a graded course the catalog does not
      have throws. */
  function Totals(catalog: seq<Course>, grades: map<string, Grade>, ids: seq<string>): (r: Option<(nat, nat)>)
    ensures r.Some? ==> r.value.0 <= 40 * r.value.1
    ensures (forall i :: 0 <= i < |ids| ==> !Graded(grades, ids[i]) || FindCourse(catalog, ids[i]).Some?)
            ==> r.Some?
    ensures (forall i :: 0 <= i < |ids| ==> !Graded(grades, ids[i])) ==> r == Some((0, 0))
  {
    if |ids| == 0 then Some((0, 0))
    else
      var rest := Totals(catalog, grades, ids[1..]);
      var id := ids[0];
      if !Graded(grades, id) then rest
      else
        match FindCourse(catalog, id)
        case None => None
        case Some(c) =>
          match rest
          case None => None
          case Some(t) => Some((t.0 + GradePoint(grades[id].current) * c.credits, t.1 + c.credits))
  }

  /** `calculateGPA()`: 0 with no enrollment or no graded course, otherwise
      the credit-weighted mean grade point; `None` where it throws. */
  function Gpa(catalog: seq<Course>, s: StudentData): (r: Option<real>)
    ensures |s.enrolled| == 0 ==> r == Some(0.0)
    ensures r.Some? ==> 0.0 <= r.value <= 4.0
    ensures EnrollmentSound(catalog, s) ==> r.Some?
    ensures (forall i :: 0 <= i < |s.enrolled| ==> !Graded(s.grades, s.enrolled[i])) ==> r == Some(0.0)
  {
    if |s.enrolled| == 0 then Some(0.0)
    else
      match Totals(catalog, s.grades, s.enrolled)
      case None => None
      case Some(t) =>
        if t.1 > 0 then
          MeanWithin(t.0, t.1);
          Some((t.0 as real / 10.0) / t.1 as real)
        else Some(0.0)
  }

  /** The sums over one id: nothing for an ungraded course, its weighted
      points and its credits for a graded one, and `None` where a graded id
      has no course. */
  lemma TotalsSingle(catalog: seq<Course>, grades: map<string, Grade>, id: string)
    ensures !Graded(grades, id) ==> Totals(catalog, grades, [id]) == Some((0, 0))
    ensures Graded(grades, id) && FindCourse(catalog, id).None? ==> Totals(catalog, grades, [id]).None?
    ensures Graded(grades, id) && FindCourse(catalog, id).Some? ==>
              var c := FindCourse(catalog, id).value;
              Totals(catalog, grades, [id]) == Some((GradePoint(grades[id].current) * c.credits, c.credits))
  {
    assert [id][1..] == [];
  }

  /** An ungraded head id leaves the sums of the rest unchanged. */
  lemma TotalsSkip(catalog: seq<Course>, grades: map<string, Grade>, ids: seq<string>)
    requires |ids| > 0 && !Graded(grades, ids[0])
    ensures Totals(catalog, grades, ids) == Totals(catalog, grades, ids[1..])
  {
  }

  /** A graded head id adds its weighted points and its credits to the sums
      of the rest. */
  lemma TotalsAdd(catalog: seq<Course>, grades: map<string, Grade>, ids: seq<string>, c: Course, t: (nat, nat))
    requires |ids| > 0 && Graded(grades, ids[0]) && FindCourse(catalog, ids[0]) == Some(c)
    requires Totals(catalog, grades, ids[1..]) == Some(t)
    ensures Totals(catalog, grades, ids)
              == Some((t.0 + GradePoint(grades[ids[0]].current) * c.credits, t.1 + c.credits))
  {
  }

  /** The sums add up over a split of the enrolled ids, so the GPA is the
      credit-weighted mean of the graded courses, whatever their number. */
  lemma {:induction false} TotalsConcat(catalog: seq<Course>, grades: map<string, Grade>,
                                         a: seq<string>, b: seq<string>, ta: (nat, nat), tb: (nat, nat))
    requires Totals(catalog, grades, a) == Some(ta) && Totals(catalog, grades, b) == Some(tb)
    ensures Totals(catalog, grades, a + b) == Some((ta.0 + tb.0, ta.1 + tb.1))
    decreases |a|
  {
    if |a| == 0 {
      assert a + b == b;
    } else {
      var ab := a + b;
      assert ab[1..] == a[1..] + b;
      assert ab[0] == a[0];
      if !Graded(grades, a[0]) {
        TotalsSkip(catalog, grades, a);
        TotalsConcat(catalog, grades, a[1..], b, ta, tb);
        TotalsSkip(catalog, grades, ab);
      } else {
        var c := FindCourse(catalog, a[0]).value;
        var t := Totals(catalog, grades, a[1..]).value;
        TotalsAdd(catalog, grades, a, c, t);
        TotalsConcat(catalog, grades, a[1..], b, t, tb);
        TotalsAdd(catalog, grades, ab, c, (t.0 + tb.0, t.1 + tb.1));
      }
    }
  }

  /** Points of at most 4.0 per credit average to at most 4.0. */
  lemma MeanWithin(points: nat, credits: nat)
    requires credits > 0 && points <= 40 * credits
    ensures 0.0 <= (points as real / 10.0) / credits as real <= 4.0
  {
    var c := credits as real;
    var gpa := (points as real / 10.0) / c;
    assert gpa * c == points as real / 10.0;
    assert (4.0 - gpa) * c >= 0.0;
  }

  /** Courses without a positive grade do not move the GPA. */
  lemma {:induction false} UngradedIgnored(catalog: seq<Course>, grades: map<string, Grade>,
                                            ids: seq<string>, id: string)
    requires !Graded(grades, id)
    ensures Totals(catalog, grades, ids + [id]) == Totals(catalog, grades, ids)
    decreases |ids|
  {
    if |ids| == 0 {
      assert Totals(catalog, grades, [id]) == Totals(catalog, grades, []);
    } else {
      assert (ids + [id])[1..] == ids[1..] + [id];
      UngradedIgnored(catalog, grades, ids[1..], id);
    }
  }

  /** A single graded course gives its own grade point as the GPA. */
  lemma SingleCourseGpa(catalog: seq<Course>, s: StudentData, id: string)
    requires ValidCatalog(catalog) && FindCourse(catalog, id).Some?
    requires s.enrolled == [id] && Graded(s.grades, id)
    ensures Gpa(catalog, s) == Some(GradePoint(s.grades[id].current) as real / 10.0)
  {
    FoundValid(catalog, id);
    var c := FindCourse(catalog, id).value;
    var g := GradePoint(s.grades[id].current);
    assert s.enrolled[1..] == [];
    assert Totals(catalog, s.grades, s.enrolled) == Some((g * c.credits, c.credits));
    Cancel(g, c.credits);
  }

  /** Dividing the weighted points of one course by its credits. */
  lemma Cancel(g: nat, credits: nat)
    requires credits > 0
    ensures ((g * credits) as real / 10.0) / credits as real == g as real / 10.0
  {
    var cr := credits as real;
    assert (g * credits) as real == g as real * cr;
    var x := g as real * cr / 10.0;
    assert x == (g as real / 10.0) * cr;
  }

  // ---------------------------------------------------------------------------
  // Level
  // ---------------------------------------------------------------------------

  /** The level shown for `xp`: one more than the whole thousands. */
  function Level(xp: int): int {
    JsMath.FloorDiv(xp, 1000) + 1
  }

  /** The experience within the current level, `xp % 1000`. */
  function XpInLevel(xp: int): int {
    JsMath.JsRem(xp, 1000)
  }

  /** Levels are whole thousands of experience: for the non-negative `xp` the
      bookkeeping keeps, `xp` splits into completed levels and an in-level
      remainder below 1000; the remainder is below 1000 in size for any `xp`. */
  lemma LevelSplit(xp: int)
    ensures -1000 < XpInLevel(xp) < 1000
    ensures xp >= 0 ==> && Level(xp) >= 1
                        && 0 <= XpInLevel(xp)
                        && xp == 1000 * (Level(xp) - 1) + XpInLevel(xp)
  {
  }

  /** Earning experience never lowers the level. */
  lemma LevelMonotone(xp: int, gain: nat)
    ensures Level(xp) <= Level(xp + gain)
  {
    var a := JsMath.FloorDiv(xp, 1000);
    var b := JsMath.FloorDiv(xp + gain, 1000);
    JsMath.MulOrder(1000, a, b);
  }
}

=== FILE: http.dfy ===
/** What the browser's `fetch` hands back, reduced to the parts the client
    code reads. The network itself is outside the model. */
module Http {
  import opened Wrappers

  /** A response: `response.ok`, `response.status`, the `Content-Type` header
      (`None` when `headers.get` returns `null`), and the body text from which
      both `response.text()` and `response.json()` read. */
  datatype Response = Response(ok: bool, status: nat, contentType: Option<string>, body: string)

  /** The settled `fetch` promise: a response, or the rejection of a request
      that never got one (its `error.message`). */
  datatype Reply = Received(response: Response) | NetworkError(message: string)
}

=== FILE: js_math.dfy ===
/** The JavaScript `Math` and `%` operations the client code applies to exact
    ratios of integers. Floating point is not modelled: a ratio `p / q` is
    kept as the pair of integers it is computed from. */
module JsMath {

  /** Multiplying by a positive number keeps the order of its factors. */
  lemma MulOrder(q: int, x: int, y: int)
    requires q > 0
    ensures x <= y <==> q * x <= q * y
  {
    assert q * y - q * x == q * (y - x);
  }

  /** `Math.round(p / q)` for `q > 0`: the nearest integer to `p / q`,
      halves rounding up (towards positive infinity). */
  function RoundDiv(p: int, q: int): (r: int)
    requires q > 0
    ensures q * (2 * r - 1) <= 2 * p < q * (2 * r + 1)
  {
    var n := 2 * p + q;
    var d := 2 * q;
    var r := n / d;
    assert d * r <= n < d * r + d by {
      assert n == d * r + n % d;
    }
    r
  }

  /** The rounding of `RoundDiv` is the only integer within one half of
      `p / q` (halves up): the contract pins the result down. */
  lemma RoundDivUnique(p: int, q: int, r: int)
    requires q > 0
    requires q * (2 * r - 1) <= 2 * p < q * (2 * r + 1)
    ensures r == RoundDiv(p, q)
  {
    var s := RoundDiv(p, q);
    MulOrder(q, 2 * s + 1, 2 * r - 1);
    MulOrder(q, 2 * r + 1, 2 * s - 1);
  }

  /** Rounding a ratio that lies between two integers stays between them. */
  lemma RoundDivBetween(p: int, q: int, lo: int, hi: int)
    requires q > 0
    requires q * lo <= p <= q * hi
    ensures lo <= RoundDiv(p, q) <= hi
  {
    var r := RoundDiv(p, q);
    MulOrder(q, 2 * r + 1, 2 * lo);
    MulOrder(q, 2 * r - 1, 2 * hi);
  }

  /** `Math.floor(a / b)` for `b > 0`. Dafny's `/` on `int` is Euclidean, which
      is flooring when the divisor is positive. */
  function FloorDiv(a: int, b: int): (r: int)
    requires b > 0
    ensures b * r <= a < b * r + b
  {
    assert a == b * (a / b) + a % b;
    a / b
  }

  /** `Math.trunc(a / b)` for `b > 0`: the quotient rounded towards zero. */
  function TruncDiv(a: int, b: int): (r: int)
    requires b > 0
    ensures a >= 0 ==> b * r <= a < b * r + b
    ensures a < 0 ==> b * r - b < a <= b * r
  {
    if a >= 0 then FloorDiv(a, b) else -FloorDiv(-a, b)
  }

  /** `a % b` for `b > 0`: JavaScript's remainder takes the sign of the
      dividend (it truncates), unlike Dafny's Euclidean `%`. */
  function JsRem(a: int, b: int): (r: int)
    requires b > 0
    ensures -b < r < b
    ensures a >= 0 ==> 0 <= r
    ensures a < 0 ==> r <= 0
    ensures a == b * TruncDiv(a, b) + r
  {
    if a >= 0 then
      assert a == b * (a / b) + a % b;
      a % b
    else
      assert -a == b * ((-a) / b) + (-a) % b;
      -((-a) % b)
  }
}

=== FILE: js_text.dfy ===
/** The JavaScript string operations the client code relies on, over
    `string = seq<char>`: case mapping, substring search, `indexOf`,
    `lastIndexOf`, `trim`, and the decimal rendering of integers used by
    template literals and `String(n)`. */
module JsText {
  import opened Wrappers

  // ---------------------------------------------------------------------------
  // Case mapping (ASCII letters only)
  // ---------------------------------------------------------------------------

  predicate IsUpperAscii(c: char) { 'A' <= c <= 'Z' }

  predicate IsLowerAscii(c: char) { 'a' <= c <= 'z' }

  function LowerChar(c: char): char {
    if IsUpperAscii(c) then (c as int + 32) as char else c
  }

  function UpperChar(c: char): char {
    if IsLowerAscii(c) then (c as int - 32) as char else c
  }

  /** `s.toLowerCase()`, restricted to ASCII letters. */
  function Lower(s: string): (r: string)
    ensures |r| == |s|
    ensures forall i :: 0 <= i < |r| ==> !IsUpperAscii(r[i])
    ensures forall i :: 0 <= i < |s| ==>
              r[i] == (if IsUpperAscii(s[i]) then (s[i] as int + 32) as char else s[i])
  {
    seq(|s|, i requires 0 <= i < |s| => LowerChar(s[i]))
  }

  /** `s.toUpperCase()`, restricted to ASCII letters. */
  function Upper(s: string): (r: string)
    ensures |r| == |s|
    ensures forall i :: 0 <= i < |r| ==> !IsLowerAscii(r[i])
  {
    seq(|s|, i requires 0 <= i < |s| => UpperChar(s[i]))
  }

  /** Lower-casing twice is lower-casing once. */
  lemma LowerIdempotent(s: string)
    ensures Lower(Lower(s)) == Lower(s)
  {
    var l := Lower(s);
    assert forall i :: 0 <= i < |l| ==> LowerChar(l[i]) == l[i];
  }

  /** Lower-casing leaves a string with no upper-case letter unchanged, and
      only such a string. */
  lemma LowerFixedPoints(s: string)
    ensures Lower(s) == s <==> forall i :: 0 <= i < |s| ==> !IsUpperAscii(s[i])
  {
    if forall i :: 0 <= i < |s| ==> !IsUpperAscii(s[i]) {
      assert forall i :: 0 <= i < |s| ==> Lower(s)[i] == s[i];
    }
  }

  // ---------------------------------------------------------------------------
  // Searching
  // ---------------------------------------------------------------------------

  /** `sub` occurs in `s` starting at position `i`. */
  predicate OccursAt(s: string, sub: string, i: int) {
    0 <= i <= |s| - |sub| && s[i..i + |sub|] == sub
  }

  /** `s.includes(sub)`. */
  predicate Contains(s: string, sub: string) {
    exists i :: 0 <= i <= |s| && OccursAt(s, sub, i)
  }

  /** A string contains every string it is built around. */
  lemma ContainsMiddle(a: string, sub: string, b: string)
    ensures Contains(a + sub + b, sub)
  {
    var s := a + sub + b;
    assert OccursAt(s, sub, |a|);
  }

  /** `s.indexOf(c)`, with `None` for -1: the first position of `c`. */
  function IndexOf(s: string, c: char): (r: Option<nat>)
    ensures r.None? <==> c !in s
    ensures r.Some? ==> r.value < |s| && s[r.value] == c && c !in s[..r.value]
  {
    if |s| == 0 then None
    else if s[0] == c then Some(0)
    else
      match IndexOf(s[1..], c)
      case None => None
      case Some(i) =>
        assert s[..i + 1] == [s[0]] + s[1..][..i];
        Some(i + 1)
  }

  /** In a string whose first `c` follows the prefix `a`, `indexOf` finds it
      right after `a`. */
  lemma {:induction false} IndexOfAfter(a: string, c: char, b: string)
    requires c !in a
    ensures IndexOf(a + [c] + b, c) == Some(|a|)
    decreases |a|
  {
    if |a| > 0 {
      assert (a + [c] + b)[1..] == a[1..] + [c] + b;
      IndexOfAfter(a[1..], c, b);
    }
  }

  /** Lower-casing works character by character, so it distributes over
      concatenation. */
  lemma LowerConcat(a: string, b: string)
    ensures Lower(a + b) == Lower(a) + Lower(b)
  {
  }

  /** `s.lastIndexOf(c)`, with `None` for -1: the last position of `c`. */
  function LastIndexOf(s: string, c: char): (r: Option<nat>)
    ensures r.None? <==> c !in s
    ensures r.Some? ==> r.value < |s| && s[r.value] == c && c !in s[r.value + 1..]
  {
    if |s| == 0 then None
    else if s[|s| - 1] == c then Some(|s| - 1)
    else
      match LastIndexOf(s[..|s| - 1], c)
      case None => None
      case Some(i) =>
        assert s[i + 1..] == s[..|s| - 1][i + 1..] + [s[|s| - 1]];
        Some(i)
  }

  /** In a string whose last `c` comes just before the suffix `b`,
      `lastIndexOf` finds it there. */
  lemma {:induction false} LastIndexOfBefore(a: string, c: char, b: string)
    requires c !in b
    ensures LastIndexOf(a + [c] + b, c) == Some(|a|)
    decreases |b|
  {
    if |b| > 0 {
      var s := a + [c] + b;
      assert s[..|s| - 1] == a + [c] + b[..|b| - 1];
      LastIndexOfBefore(a, c, b[..|b| - 1]);
    }
  }

  /** `c` is at `i` and nowhere before it. */
  predicate FirstAt(s: string, c: char, i: int) {
    0 <= i < |s| && s[i] == c && c !in s[..i]
  }

  /** `c` is at `i` and nowhere after it. */
  predicate LastAt(s: string, c: char, i: int) {
    0 <= i < |s| && s[i] == c && c !in s[i + 1..]
  }

  /** `indexOf` answers the one position where `c` first occurs. */
  lemma IndexOfUnique(s: string, c: char)
    ensures forall i :: FirstAt(s, c, i) ==> IndexOf(s, c) == Some(i)
  {
    forall i | FirstAt(s, c, i)
      ensures IndexOf(s, c) == Some(i)
    {
      var k := IndexOf(s, c).value;
      assert forall j :: 0 <= j < i ==> s[j] != c by {
        forall j | 0 <= j < i ensures s[j] != c { assert s[..i][j] == s[j]; }
      }
      assert forall j :: 0 <= j < k ==> s[j] != c by {
        forall j | 0 <= j < k ensures s[j] != c { assert s[..k][j] == s[j]; }
      }
    }
  }

  /** `lastIndexOf` answers the one position where `c` last occurs. */
  lemma LastIndexOfUnique(s: string, c: char)
    ensures forall i :: LastAt(s, c, i) ==> LastIndexOf(s, c) == Some(i)
  {
    forall i | LastAt(s, c, i)
      ensures LastIndexOf(s, c) == Some(i)
    {
      var k := LastIndexOf(s, c).value;
      assert forall j :: i < j < |s| ==> s[j] != c by {
        forall j | i < j < |s| ensures s[j] != c { assert s[i + 1..][j - i - 1] == s[j]; }
      }
      assert forall j :: k < j < |s| ==> s[j] != c by {
        forall j | k < j < |s| ensures s[j] != c { assert s[k + 1..][j - k - 1] == s[j]; }
      }
    }
  }

  // ---------------------------------------------------------------------------
  // trim
  // ---------------------------------------------------------------------------

  /** The characters `String.prototype.trim` strips: ECMAScript WhiteSpace
      (tab, vertical tab, form feed, space, no-break space, byte order mark and
      the space separators of category Zs) and LineTerminator. */
  predicate IsJsSpace(c: char) {
    var n := c as int;
    n == 0x09 || n == 0x0A || n == 0x0B || n == 0x0C || n == 0x0D || n == 0x20 ||
    n == 0xA0 || n == 0x1680 || (0x2000 <= n <= 0x200A) || n == 0x2028 ||
    n == 0x2029 || n == 0x202F || n == 0x205F || n == 0x3000 || n == 0xFEFF
  }

  /** How many characters of white space `s` starts with. */
  function LeadingSpace(s: string): (k: nat)
    ensures k <= |s|
    ensures forall i :: 0 <= i < k ==> IsJsSpace(s[i])
    ensures k < |s| ==> !IsJsSpace(s[k])
  {
    if |s| == 0 || !IsJsSpace(s[0]) then 0 else 1 + LeadingSpace(s[1..])
  }

  /** How many characters of white space `s` ends with. */
  function TrailingSpace(s: string): (k: nat)
    ensures k <= |s|
    ensures forall i :: |s| - k <= i < |s| ==> IsJsSpace(s[i])
    ensures k < |s| ==> !IsJsSpace(s[|s| - k - 1])
  {
    if |s| == 0 || !IsJsSpace(s[|s| - 1]) then 0 else 1 + TrailingSpace(s[..|s| - 1])
  }

  /** `r` is `s` at position `i` with nothing but white space around it. */
  predicate SpaceAround(s: string, r: string, i: int) {
    && OccursAt(s, r, i)
    && (forall k :: 0 <= k < i ==> IsJsSpace(s[k]))
    && (forall k :: i + |r| <= k < |s| ==> IsJsSpace(s[k]))
  }

  /** `s.trim()`: the middle of `s` once white space is removed from both ends. */
  function Trim(s: string): (r: string)
    ensures |r| == 0 || (!IsJsSpace(r[0]) && !IsJsSpace(r[|r| - 1]))
    ensures exists i :: 0 <= i <= |s| && SpaceAround(s, r, i)
  {
    var lead := LeadingSpace(s);
    var u := s[lead..];
    var trail := TrailingSpace(u);
    var r := u[..|u| - trail];
    assert SpaceAround(s, r, lead);
    r
  }

  // ---------------------------------------------------------------------------
  // Decimal rendering of integers
  // ---------------------------------------------------------------------------

  predicate IsDigit(c: char) { '0' <= c <= '9' }

  predicate IsDigits(s: string) { forall i :: 0 <= i < |s| ==> IsDigit(s[i]) }

  function DigitChar(d: nat): (c: char)
    requires d < 10
    ensures IsDigit(c)
  {
    ('0' as int + d) as char
  }

  function DigitValue(c: char): nat
    requires IsDigit(c)
  {
    c as int - '0' as int
  }

  /** The number a string of decimal digits denotes. */
  function DigitsValue(s: string): nat
    requires IsDigits(s)
  {
    if |s| == 0 then 0 else 10 * DigitsValue(s[..|s| - 1]) + DigitValue(s[|s| - 1])
  }

  /** `String(n)` for a natural number: its shortest decimal numeral. */
  function NatToString(n: nat): (r: string)
    ensures |r| >= 1 && IsDigits(r)
    ensures |r| > 1 ==> r[0] != '0'
    ensures n < 10 <==> |r| == 1
  {
    if n < 10 then [DigitChar(n)] else NatToString(n / 10) + [DigitChar(n % 10)]
  }

  /** `String(i)` for an integer: a minus sign before the numeral of a
      negative number. */
  function IntToString(i: int): (r: string)
    ensures |r| >= 1
    ensures i >= 0 ==> IsDigits(r)
    ensures i < 0 ==> r[0] == '-' && IsDigits(r[1..])
  {
    if i < 0 then "-" + NatToString(-i) else NatToString(i)
  }

  /** Reading back the numeral of `n` gives `n`: the rendering loses nothing. */
  lemma {:induction false} NatToStringValue(n: nat)
    ensures DigitsValue(NatToString(n)) == n
    decreases n
  {
    if n >= 10 {
      NatToStringValue(n / 10);
      var r := NatToString(n);
      assert r[..|r| - 1] == NatToString(n / 10);
    }
  }

  /** Distinct numbers render as distinct numerals. */
  lemma NatToStringInjective(m: nat, n: nat)
    requires NatToString(m) == NatToString(n)
    ensures m == n
  {
    NatToStringValue(m);
    NatToStringValue(n);
  }

  /** `s.padStart(2, "0")`. */
  function PadTwo(s: string): (r: string)
    ensures |s| >= 2 ==> r == s
    ensures |s| < 2 ==> (|r| == 2 && r[2 - |s|..] == s
                         && forall i :: 0 <= i < 2 - |s| ==> r[i] == '0')
  {
    if |s| >= 2 then s else if |s| == 1 then "0" + s else "00"
  }
}

=== FILE: json.dfy ===
/** JavaScript values as they come out of `JSON.parse`, and the three things
    the client code does with them: property reads (`data.detail`),
    truthiness (`data.url ? … : …`, `a || b`) and conversion to a string
    (`new Error(x)`, `"…" + x`). */
module Json {
  import opened Wrappers
  import JsText

  /** A parsed JSON value. Numbers are integers in this model. An object keeps
      its members in source order; `JSON.parse` lets a later duplicate key
      override an earlier one. */
  datatype Json =
    | JNull
    | JBool(b: bool)
    | JNumber(n: int)
    | JString(s: string)
    | JArray(items: seq<Json>)
    | JObject(members: seq<(string, Json)>)

  /** What `JSON.parse(text)` gives: a value, or the `SyntaxError` it throws. */
  datatype Parsed = Parsed(value: Json) | SyntaxError(message: string)

  /** `JSON.parse` itself is a collaborator of the model, supplied by the caller. */
  type Parser = string -> Parsed

  /** The object `{key: value}`. */
  function Single(key: string, value: Json): Json {
    JObject([(key, value)])
  }

  /** JavaScript truthiness of a value that may be `undefined` (`None`). */
  predicate Truthy(v: Option<Json>) {
    match v
    case None => false
    case Some(j) =>
      match j
      case JNull => false
      case JBool(b) => b
      case JNumber(n) => n != 0
      case JString(s) => s != ""
      case _ => true
  }

  /** `a || b`: `a` itself when it is truthy, otherwise `b`. */
  function Or(a: Option<Json>, b: Json): (r: Json)
    ensures Truthy(a) ==> Some(r) == a
    ensures !Truthy(a) ==> r == b
  {
    if Truthy(a) then a.value else b
  }

  /** Member `i` of `ms` is named `key` and no later member is. */
  predicate LastNamed(ms: seq<(string, Json)>, key: string, i: int) {
    && 0 <= i < |ms|
    && ms[i].0 == key
    && forall j :: i < j < |ms| ==> ms[j].0 != key
  }

  /** The position of the last member of `ms` named `key`. */
  function LastPosition(ms: seq<(string, Json)>, key: string): (r: Option<nat>)
    ensures r.None? <==> forall i :: 0 <= i < |ms| ==> ms[i].0 != key
    ensures r.Some? ==> LastNamed(ms, key, r.value)
  {
    if |ms| == 0 then None
    else if ms[|ms| - 1].0 == key then Some(|ms| - 1)
    else
      var init := ms[..|ms| - 1];
      match LastPosition(init, key)
      case None => None
      case Some(i) =>
        assert LastNamed(init, key, i);
        Some(i)
  }

  /** The value an object with members `ms` holds under `key`: the last
      member of that name, or `undefined`. */
  function Lookup(ms: seq<(string, Json)>, key: string): (r: Option<Json>)
    ensures r.None? <==> forall i :: 0 <= i < |ms| ==> ms[i].0 != key
    ensures r.Some? ==> exists i :: LastNamed(ms, key, i) && ms[i].1 == r.value
  {
    match LastPosition(ms, key)
    case None => None
    case Some(i) => Some(ms[i].1)
  }

  /** The result of reading a property: a value (possibly `undefined`) or the
      `TypeError` thrown when the receiver is `null`. */
  datatype Read = Value(v: Option<Json>) | TypeError(message: string)

  /** `v[key]` for a key that is not a built-in property of strings or
      arrays (`url`, `detail`, `student_id`, `email`, `reply`, `plan`). The
      error text is the one V8, the engine under Node and Chrome, produces. */
  function Get(v: Json, key: string): (r: Read)
    ensures r.TypeError? <==> v.JNull?
    ensures v.JObject? ==> r == Value(Lookup(v.members, key))
    ensures !v.JObject? && !v.JNull? ==> r == Value(None)
  {
    match v
    case JNull => TypeError("Cannot read properties of null (reading '" + key + "')")
    case JObject(ms) => Value(Lookup(ms, key))
    case _ => Value(None)
  }

  /** Joins `parts` with `sep` between neighbours (`Array.prototype.join`). */
  function Join(parts: seq<string>, sep: string): string {
    if |parts| == 0 then ""
    else if |parts| == 1 then parts[0]
    else parts[0] + sep + Join(parts[1..], sep)
  }

  /** `String(v)`: how a value reads once it is made into a message. An array
      is its elements joined by commas, `null` elements reading as empty; an
      object reads as `[object Object]`. */
  function ToJsString(v: Json): (r: string)
    ensures v.JString? ==> r == v.s
    ensures v.JNumber? && v.n >= 0 ==> JsText.IsDigits(r)
    decreases v
  {
    match v
    case JNull => "null"
    case JBool(b) => if b then "true" else "false"
    case JNumber(n) => JsText.IntToString(n)
    case JString(s) => s
    case JArray(items) =>
      Join(seq(|items|, i requires 0 <= i < |items| =>
             if items[i].JNull? then "" else ToJsString(items[i])), ",")
    case JObject(_) => "[object Object]"
  }

  /** A later member of the same name overrides everything before it. */
  lemma LookupOverride(ms: seq<(string, Json)>, key: string, value: Json)
    ensures Lookup(ms + [(key, value)], key) == Some(value)
  {
  }
}

=== FILE: study_hall.dfy ===
/** The study hall: the focus timer, quiz grading and the running average
    score, the recovery of a JSON object from a tutor reply, and the
    flashcard deck. Clocks, intervals and dates are parameters: `now` is
    `Date.now()` and `date` the ISO text of `new Date()`. */
module StudyHall {
  import opened Wrappers
  import JsText
  import JsMath

  // ---------------------------------------------------------------------------
  // Focus timer
  // ---------------------------------------------------------------------------

  /** `studySession`. `running` stands for a live `timerInterval`. */
  datatype Timer = Timer(subject: string, focusMinutes: nat, timeRemaining: int,
                         running: bool, isPaused: bool, startTime: Option<int>)

  /** A completed focus session. */
  datatype Session = Session(date: string, subject: string, minutes: nat, completed: bool)

  /** A percentage, or the `NaN` that `0 / 0` produces. */
  datatype Score = Pct(value: int) | NotANumber

  /** `performanceData`. */
  datatype Performance = Performance(quizzes: seq<QuizRecord>, sessions: seq<Session>,
                                     totalMinutes: int, averageScore: Score)

  const InitialTimer := Timer("General", 25, 0, false, false, None)

  const InitialPerformance := Performance([], [], 0, Pct(0))

  /** The timer never holds more than one full focus period, nor less than
      nothing. */
  predicate TimerOk(t: Timer) {
    0 <= t.timeRemaining <= t.focusMinutes * 60
  }

  /** `startTimer()`: a timer at zero is wound up to a full focus period and
      its start recorded; a paused timer keeps the time it had left. */
  function Start(t: Timer, now: int): (r: Timer)
    ensures r.running && !r.isPaused
    ensures r.subject == t.subject && r.focusMinutes == t.focusMinutes
    ensures t.timeRemaining == 0 ==> r.timeRemaining == t.focusMinutes * 60 && r.startTime == Some(now)
    ensures t.timeRemaining != 0 ==> r.timeRemaining == t.timeRemaining && r.startTime == t.startTime
    ensures TimerOk(t) ==> TimerOk(r)
  {
    var wound := if t.timeRemaining == 0
                 then t.(timeRemaining := t.focusMinutes * 60, startTime := Some(now))
                 else t;
    wound.(isPaused := false, running := true)
  }

  /** `pauseTimer()`: stops the countdown and keeps the time left. */
  function Pause(t: Timer): (r: Timer)
    ensures !r.running && r.isPaused
    ensures r.timeRemaining == t.timeRemaining && r.startTime == t.startTime
    ensures r.subject == t.subject && r.focusMinutes == t.focusMinutes
  {
    t.(running := false, isPaused := true)
  }

  /** `toggleTimer()`: pauses a running timer and starts any other. */
  function Toggle(t: Timer, now: int): (r: Timer)
    ensures r.running == !t.running
    ensures r.subject == t.subject && r.focusMinutes == t.focusMinutes
    ensures t.running ==> r.isPaused && r.timeRemaining == t.timeRemaining && r.startTime == t.startTime
    ensures !t.running ==> !r.isPaused
    ensures !t.running && t.timeRemaining == 0 ==>
              r.timeRemaining == t.focusMinutes * 60 && r.startTime == Some(now)
    ensures !t.running && t.timeRemaining != 0 ==>
              r.timeRemaining == t.timeRemaining && r.startTime == t.startTime
    ensures TimerOk(t) ==> TimerOk(r)
  {
    if t.running then Pause(t) else Start(t, now)
  }

  /** Pressing the button twice on a running timer with time left resumes it
      exactly where it was, unpaused. */
  lemma ToggleTwice(t: Timer, now: int)
    requires t.running && t.timeRemaining != 0
    ensures Toggle(Toggle(t, now), now) == t.(isPaused := false)
  {
  }

  /** `finishTimer()`: the countdown stops at zero and one completed session
      of the focus length is recorded. */
  function Finish(t: Timer, p: Performance, date: string): (r: (Timer, Performance))
    ensures !r.0.running && r.0.timeRemaining == 0
    ensures r.0.subject == t.subject && r.0.focusMinutes == t.focusMinutes
    ensures r.0.isPaused == t.isPaused && r.0.startTime == t.startTime
    ensures r.1.sessions == p.sessions + [Session(date, t.subject, t.focusMinutes, true)]
    ensures r.1.totalMinutes == p.totalMinutes + t.focusMinutes
    ensures r.1.quizzes == p.quizzes && r.1.averageScore == p.averageScore
  {
    (t.(running := false, timeRemaining := 0),
     p.(sessions := p.sessions + [Session(date, t.subject, t.focusMinutes, true)],
        totalMinutes := p.totalMinutes + t.focusMinutes))
  }

  /** One firing of the one-second interval: a second comes off, and the
      timer finishes once nothing is left. A stopped timer has no interval. */
  function Tick(t: Timer, p: Performance, date: string): (r: (Timer, Performance))
    ensures !t.running ==> r == (t, p)
    ensures t.running && t.timeRemaining > 1 ==>
              r == (t.(timeRemaining := t.timeRemaining - 1), p)
    ensures t.running && t.timeRemaining <= 1 ==> r == Finish(t, p, date)
    ensures TimerOk(t) ==> TimerOk(r.0)
  {
    if !t.running then (t, p)
    else
      var left := t.timeRemaining - 1;
      if left <= 0 then Finish(t.(timeRemaining := left), p, date)
      else (t.(timeRemaining := left), p)
  }

  /** `n` firings of the interval. */
  function Ticks(t: Timer, p: Performance, date: string, n: nat): (Timer, Performance)
    decreases n
  {
    if n == 0 then (t, p)
    else
      var next := Tick(t, p, date);
      Ticks(next.0, next.1, date, n - 1)
  }

  /** Before the time is up the timer just counts down. */
  lemma {:induction false} CountsDown(t: Timer, p: Performance, date: string, n: nat)
    requires t.running && n < t.timeRemaining
    ensures Ticks(t, p, date, n) == (t.(timeRemaining := t.timeRemaining - n), p)
    decreases n
  {
    if n > 0 {
      var next := Tick(t, p, date);
      assert next == (t.(timeRemaining := t.timeRemaining - 1), p);
      CountsDown(next.0, p, date, n - 1);
    }
  }

  /** A running timer with `k` seconds left finishes after exactly `k`
      firings, recording one session of the focus length. */
  lemma RunsToCompletion(t: Timer, p: Performance, date: string)
    requires t.running && t.timeRemaining > 0
    ensures var r := Ticks(t, p, date, t.timeRemaining);
            && !r.0.running && r.0.timeRemaining == 0
            && r.1.sessions == p.sessions + [Session(date, t.subject, t.focusMinutes, true)]
            && r.1.totalMinutes == p.totalMinutes + t.focusMinutes
  {
    var k := t.timeRemaining;
    CountsDown(t, p, date, k - 1);
    var before := t.(timeRemaining := 1);
    assert Ticks(t, p, date, k - 1) == (before, p);
    TicksSplit(t, p, date, k - 1, 1);
  }

  /** Firing `m + n` times is firing `m` times and then `n` more. */
  lemma {:induction false} TicksSplit(t: Timer, p: Performance, date: string, m: nat, n: nat)
    ensures var mid := Ticks(t, p, date, m);
            Ticks(t, p, date, m + n) == Ticks(mid.0, mid.1, date, n)
    decreases m
  {
    if m > 0 {
      var next := Tick(t, p, date);
      TicksSplit(next.0, next.1, date, m - 1, n);
    }
  }

  /** Pausing and resuming loses no time. */
  lemma PauseResume(t: Timer, now: int)
    requires t.running && t.timeRemaining > 0
    ensures Start(Pause(t), now).timeRemaining == t.timeRemaining
    ensures Start(Pause(t), now).running
  {
  }

  /** `updateTimerDisplay()`: whole minutes, a colon, and the seconds padded
      to two digits. */
  function FormatTimer(t: nat): (r: string)
    ensures |r| >= 4 && r[|r| - 3] == ':'
    ensures JsText.IsDigits(r[..|r| - 3]) && JsText.IsDigits(r[|r| - 2..])
  {
    JsText.NatToString(t / 60) + ":" + JsText.PadTwo(JsText.NatToString(t % 60))
  }

  /** The display reads back as the time it shows: minutes before the colon
      and fewer than sixty seconds after it. */
  lemma FormatTimerValue(t: nat)
    ensures var r := FormatTimer(t);
            && JsText.DigitsValue(r[|r| - 2..]) < 60
            && 60 * JsText.DigitsValue(r[..|r| - 3]) + JsText.DigitsValue(r[|r| - 2..]) == t
  {
    var minutes := JsText.NatToString(t / 60);
    var seconds := JsText.NatToString(t % 60);
    var padded := JsText.PadTwo(seconds);
    var r := FormatTimer(t);
    assert r == minutes + ":" + padded;
    assert |padded| == 2 by {
      assert |seconds| == 1 || |seconds| == 2 by {
        if t % 60 >= 10 {
          assert t % 60 / 10 < 10;
        }
      }
    }
    assert r[..|r| - 3] == minutes;
    assert r[|r| - 2..] == padded;
    JsText.NatToStringValue(t / 60);
    JsText.NatToStringValue(t % 60);
    PaddedValue(seconds);
  }

  /** Zero-padding to two digits does not change the value. */
  lemma PaddedValue(s: string)
    requires 1 <= |s| <= 2 && JsText.IsDigits(s)
    ensures JsText.IsDigits(JsText.PadTwo(s))
    ensures JsText.DigitsValue(JsText.PadTwo(s)) == JsText.DigitsValue(s)
  {
    if |s| == 1 {
      var p := JsText.PadTwo(s);
      assert p[..1] == "0";
      assert p[1] == s[0];
      assert s[..0] == [];
    }
  }

  // ---------------------------------------------------------------------------
  // Quizzes
  // ---------------------------------------------------------------------------

  /** What a slot of `quizAnswers`, or a question's `correct`, can hold:
      `undefined`, `null`, or an option index. Strict equality on these is
      equality of the values. */
  datatype Slot = Undefined | Null | Index(n: int)

  datatype Question = Question(question: string, correct: Slot, explanation: string)

  /** `currentQuiz`. */
  datatype Quiz = Quiz(subject: string, difficulty: string, questions: seq<Question>, startTime: int)

  datatype QuestionResult = QuestionResult(question: string, userAnswer: Slot, correctAnswer: Slot,
                                           isCorrect: bool, explanation: string)

  datatype QuizRecord = QuizRecord(date: string, subject: string, difficulty: string, score: Score,
                                   correct: nat, total: nat, timeTaken: int,
                                   results: seq<QuestionResult>)

  /** `quizAnswers[i]`: reading past the end gives `undefined`. */
  function AnswerAt(answers: seq<Slot>, i: nat): (r: Slot)
    ensures i >= |answers| ==> r == Undefined
  {
    if i < |answers| then answers[i] else Undefined
  }

  /** The per-question results, in question order. */
  function Results(questions: seq<Question>, answers: seq<Slot>): (rs: seq<QuestionResult>)
    ensures |rs| == |questions|
    ensures forall i :: 0 <= i < |rs| ==>
              && rs[i].userAnswer == AnswerAt(answers, i)
              && rs[i].correctAnswer == questions[i].correct
              && (rs[i].isCorrect <==> AnswerAt(answers, i) == questions[i].correct)
  {
    seq(|questions|, i requires 0 <= i < |questions| =>
      QuestionResult(questions[i].question, AnswerAt(answers, i), questions[i].correct,
                     AnswerAt(answers, i) == questions[i].correct, questions[i].explanation))
  }

  /** How many results are correct. */
  function CountCorrect(rs: seq<QuestionResult>): (n: nat)
    ensures n <= |rs|
    ensures n == |rs| <==> forall i :: 0 <= i < |rs| ==> rs[i].isCorrect
    ensures n == 0 <==> forall i :: 0 <= i < |rs| ==> !rs[i].isCorrect
  {
    if |rs| == 0 then 0
    else CountCorrect(rs[..|rs| - 1]) + (if rs[|rs| - 1].isCorrect then 1 else 0)
  }

  /** `Math.round(correct / total * 100)`, which is `NaN` for an empty quiz. */
  function QuizScore(correct: nat, total: nat): (s: Score)
    requires correct <= total
    ensures total == 0 <==> s.NotANumber?
    ensures s.Pct? ==> 0 <= s.value <= 100
    ensures s.Pct? ==> total * (2 * s.value - 1) <= 200 * correct < total * (2 * s.value + 1)
  {
    if total == 0 then NotANumber
    else
      JsMath.RoundDivBetween(100 * correct, total, 0, 100);
      Pct(JsMath.RoundDiv(100 * correct, total))
  }

  /** Every answer right scores 100, none right scores 0. */
  lemma QuizScoreExtremes(total: nat)
    requires total > 0
    ensures QuizScore(total, total) == Pct(100)
    ensures QuizScore(0, total) == Pct(0)
  {
    JsMath.RoundDivUnique(100 * total, total, 100);
    JsMath.RoundDivUnique(0, total, 0);
  }

  /** The scores of `quizzes`, in order. */
  function Scores(quizzes: seq<QuizRecord>): (r: seq<Score>)
    ensures |r| == |quizzes|
    ensures forall i :: 0 <= i < |r| ==> r[i] == quizzes[i].score
  {
    seq(|quizzes|, i requires 0 <= i < |quizzes| => quizzes[i].score)
  }

  /** The sum of the scores; `NaN` absorbs everything it is added to. */
  function SumScores(scores: seq<Score>): (r: Score)
    ensures r.NotANumber? <==> exists i :: 0 <= i < |scores| && scores[i].NotANumber?
  {
    if |scores| == 0 then Pct(0)
    else
      var rest := SumScores(scores[..|scores| - 1]);
      var last := scores[|scores| - 1];
      if rest.NotANumber? || last.NotANumber? then NotANumber else Pct(rest.value + last.value)
  }

  /** Every score is a number between `lo` and `hi`. */
  predicate ScoresWithin(scores: seq<Score>, lo: int, hi: int) {
    forall i :: 0 <= i < |scores| ==> scores[i].Pct? && lo <= scores[i].value <= hi
  }

  /** A sum of `n` scores between `lo` and `hi` lies between `n * lo` and `n * hi`. */
  lemma {:induction false} SumWithin(scores: seq<Score>, lo: int, hi: int)
    requires ScoresWithin(scores, lo, hi)
    ensures SumScores(scores).Pct?
    ensures |scores| * lo <= SumScores(scores).value <= |scores| * hi
    decreases |scores|
  {
    if |scores| > 0 {
      var init := scores[..|scores| - 1];
      assert ScoresWithin(init, lo, hi);
      SumWithin(init, lo, hi);
      assert |scores| * lo == |init| * lo + lo;
      assert |scores| * hi == |init| * hi + hi;
    }
  }

  /** `calculateAverageScore()`: 0 with no quiz taken, otherwise the rounded
      mean score (`NaN` once any score is). */
  function AverageScore(scores: seq<Score>): (r: Score)
    ensures |scores| == 0 ==> r == Pct(0)
    ensures |scores| > 0 ==> (r.NotANumber? <==> SumScores(scores).NotANumber?)
    ensures |scores| > 0 && r.Pct? ==>
              |scores| * (2 * r.value - 1) <= 2 * SumScores(scores).value < |scores| * (2 * r.value + 1)
  {
    if |scores| == 0 then Pct(0)
    else
      match SumScores(scores)
      case NotANumber => NotANumber
      case Pct(sum) => Pct(JsMath.RoundDiv(sum, |scores|))
  }

  /** The average lies between the lowest and the highest score. */
  lemma AverageWithin(scores: seq<Score>, lo: int, hi: int)
    requires |scores| > 0 && ScoresWithin(scores, lo, hi)
    ensures AverageScore(scores).Pct?
    ensures lo <= AverageScore(scores).value <= hi
  {
    SumWithin(scores, lo, hi);
    JsMath.RoundDivBetween(SumScores(scores).value, |scores|, lo, hi);
  }

  /** `gradeQuiz()`: `None` when no quiz is open; otherwise the record of the
      graded quiz and the performance data with that record appended and the
      average recomputed. */
  function GradeQuiz(quiz: Option<Quiz>, answers: seq<Slot>, p: Performance, now: int, date: string)
    : (r: Option<(QuizRecord, Performance)>)
    ensures quiz.None? <==> r.None?
    ensures r.Some? ==>
              var q := quiz.value;
              var rec := r.value.0;
              && rec.total == |q.questions|
              && rec.correct == CountCorrect(Results(q.questions, answers))
              && rec.score == QuizScore(rec.correct, rec.total)
              && rec.results == Results(q.questions, answers)
              && rec.subject == q.subject && rec.difficulty == q.difficulty
              && r.value.1.quizzes == p.quizzes + [rec]
              && r.value.1.averageScore == AverageScore(Scores(r.value.1.quizzes))
              && r.value.1.sessions == p.sessions && r.value.1.totalMinutes == p.totalMinutes
  {
    match quiz
    case None => None
    case Some(q) =>
      var results := Results(q.questions, answers);
      var correct := CountCorrect(results);
      var total := |q.questions|;
      var rec := QuizRecord(date, q.subject, q.difficulty, QuizScore(correct, total), correct, total,
                            JsMath.RoundDiv(now - q.startTime, 1000), results);
      var quizzes := p.quizzes + [rec];
      Some((rec, p.(quizzes := quizzes, averageScore := AverageScore(Scores(quizzes)))))
  }

  /** A question counts as correct exactly when the answer in its slot is
      its `correct` value; answering every question right scores 100. */
  lemma AllRightScoresFull(q: Quiz, answers: seq<Slot>, p: Performance, now: int, date: string)
    requires |q.questions| > 0
    requires forall i :: 0 <= i < |q.questions| ==> AnswerAt(answers, i) == q.questions[i].correct
    ensures GradeQuiz(Some(q), answers, p, now, date).value.0.score == Pct(100)
  {
    var rs := Results(q.questions, answers);
    assert CountCorrect(rs) == |q.questions|;
    QuizScoreExtremes(|q.questions|);
  }

  /** The message band `showQuizResults` picks for a score. */
  datatype Band = Exceptional | Excellent | GoodJob | KeepStudying | ReviewAgain

  /** The band of a score; `NaN` fails every comparison and lands in the
      lowest band. */
  function BandOf(s: Score): (b: Band)
    ensures s.NotANumber? ==> b == ReviewAgain
    ensures s.Pct? ==> (b == Exceptional <==> s.value >= 90)
    ensures s.Pct? ==> (b == ReviewAgain <==> s.value < 60)
  {
    if s.NotANumber? then ReviewAgain
    else if s.value >= 90 then Exceptional
    else if s.value >= 80 then Excellent
    else if s.value >= 70 then GoodJob
    else if s.value >= 60 then KeepStudying
    else ReviewAgain
  }

  /** The text shown for a band. */
  function BandText(b: Band): string {
    match b
    case Exceptional => "Exceptional mastery!"
    case Excellent => "Excellent work!"
    case GoodJob => "Good job!"
    case KeepStudying => "Keep studying!"
    case ReviewAgain => "Review and try again!"
  }

  /** Bands in order of merit, 4 the best. */
  function Rank(b: Band): nat {
    match b
    case Exceptional => 4
    case Excellent => 3
    case GoodJob => 2
    case KeepStudying => 1
    case ReviewAgain => 0
  }

  /** A higher score never lands in a lower band; the five bands are ten
      points wide from 60 up. */
  lemma BandMonotone(x: int, y: int)
    requires x <= y
    ensures Rank(BandOf(Pct(x))) <= Rank(BandOf(Pct(y)))
    ensures 60 <= x < 90 ==> Rank(BandOf(Pct(x))) == (x - 60) / 10 + 1
  {
  }

  // ---------------------------------------------------------------------------
  // JSON in a tutor reply
  // ---------------------------------------------------------------------------

  /** The text `generateQuiz` and `generateFlashcards` hand to `JSON.parse`:
      the trimmed reply, cut down to the span from its first `{` through its
      last `}` when there is such a span. */
  function ExtractJson(reply: string): (r: string)
    ensures var t := JsText.Trim(reply);
            forall i, j :: JsText.FirstAt(t, '{', i) && JsText.LastAt(t, '}', j) ==>
              r == if i < j then t[i..j + 1] else t
    ensures var t := JsText.Trim(reply);
            '{' !in t || '}' !in t ==> r == t
  {
    var t := JsText.Trim(reply);
    JsText.IndexOfUnique(t, '{');
    JsText.LastIndexOfUnique(t, '}');
    match (JsText.IndexOf(t, '{'), JsText.LastIndexOf(t, '}'))
    case (Some(start), Some(last)) => if last + 1 > start then t[start..last + 1] else t
    case _ => t
  }

  /** Text that starts and ends with something other than white space is
      left whole by `trim`. */
  lemma TrimNoop(s: string)
    requires |s| > 0 && !JsText.IsJsSpace(s[0]) && !JsText.IsJsSpace(s[|s| - 1])
    ensures JsText.Trim(s) == s
  {
    var r := JsText.Trim(s);
    var i :| 0 <= i <= |s| && JsText.SpaceAround(s, r, i);
    assert i == 0;
    assert |r| == |s|;
    assert s[i..i + |r|] == r;
  }

  /** A JSON object embedded in chatter is recovered exactly when the chatter
      before it has no `{` and the chatter after it has no `}`. */
  lemma ExtractEmbedded(before: string, body: string, after: string)
    requires |body| >= 2 && body[0] == '{' && body[|body| - 1] == '}'
    requires '{' !in before && '}' !in after
    requires !JsText.IsJsSpace((before + body + after)[0])
    requires !JsText.IsJsSpace((before + body + after)[|before + body + after| - 1])
    ensures ExtractJson(before + body + after) == body
  {
    var s := before + body + after;
    FirstBrace(before, body, after);
    LastBrace(before, body, after);
    assert s[|before|..|before| + |body|] == body;
    TrimNoop(s);
  }

  /** The first `{` of embedded JSON is its opening brace. */
  lemma FirstBrace(before: string, body: string, after: string)
    requires |body| >= 1 && body[0] == '{' && '{' !in before
    ensures JsText.IndexOf(before + body + after, '{') == Some(|before|)
  {
    var rest := body[1..] + after;
    SplitFirst(before, body, after);
    JsText.IndexOfAfter(before, '{', rest);
  }

  /** The last `}` of embedded JSON is its closing brace. */
  lemma LastBrace(before: string, body: string, after: string)
    requires |body| >= 1 && body[|body| - 1] == '}' && '}' !in after
    ensures JsText.LastIndexOf(before + body + after, '}') == Some(|before| + |body| - 1)
  {
    var init := before + body[..|body| - 1];
    SplitLast(before, body, after);
    JsText.LastIndexOfBefore(init, '}', after);
  }

  lemma SplitFirst(a: string, m: string, b: string)
    requires |m| > 0
    ensures a + m + b == a + [m[0]] + (m[1..] + b)
  {
    assert m == [m[0]] + m[1..];
  }

  lemma SplitLast(a: string, m: string, b: string)
    requires |m| > 0
    ensures a + m + b == (a + m[..|m| - 1]) + [m[|m| - 1]] + b
  {
    assert m == m[..|m| - 1] + [m[|m| - 1]];
  }

  /** A reply without braces is passed on trimmed and otherwise whole. */
  lemma ExtractWithoutBraces(reply: string)
    requires '{' !in reply
    ensures ExtractJson(reply) == JsText.Trim(reply)
  {
    var t := JsText.Trim(reply);
    var i :| 0 <= i <= |reply| && JsText.SpaceAround(reply, t, i);
    assert forall k :: 0 <= k < |t| ==> t[k] == reply[i + k];
    assert '{' !in t;
  }

  // ---------------------------------------------------------------------------
  // Flashcards
  // ---------------------------------------------------------------------------

  datatype Card = Card(front: string, back: string)

  /** `flashcardDeck`, `currentFlashcard` and `isFlipped`. */
  datatype Deck = Deck(cards: seq<Card>, current: nat, flipped: bool)

  /** The position points at a card, or at 0 in an empty deck. */
  predicate DeckOk(d: Deck) {
    if |d.cards| == 0 then d.current == 0 else d.current < |d.cards|
  }

  /** `showFlashcard(index)`: moves to the card, front side up. */
  function Show(d: Deck, index: nat): (r: Deck)
    requires index < |d.cards|
    ensures r.current == index && !r.flipped && r.cards == d.cards
    ensures DeckOk(r)
  {
    d.(current := index, flipped := false)
  }

  /** The "previous" button: moves back only when there is a card before. */
  function Prev(d: Deck): (r: Deck)
    requires DeckOk(d)
    ensures DeckOk(r) && r.cards == d.cards
    ensures d.current > 0 ==> r.current == d.current - 1 && !r.flipped
    ensures d.current == 0 ==> r == d
  {
    if d.current > 0 then Show(d, d.current - 1) else d
  }

  /** The "next" button: moves on only when there is a card after. */
  function Next(d: Deck): (r: Deck)
    requires DeckOk(d)
    ensures DeckOk(r) && r.cards == d.cards
    ensures d.current + 1 < |d.cards| ==> r.current == d.current + 1 && !r.flipped
    ensures d.current + 1 >= |d.cards| ==> r == d
  {
    if d.current < |d.cards| - 1 then Show(d, d.current + 1) else d
  }

  /** `flipCard()`: turns the card over. */
  function Flip(d: Deck): (r: Deck)
    ensures r.flipped == !d.flipped && r.cards == d.cards && r.current == d.current
  {
    d.(flipped := !d.flipped)
  }

  /** The text on the visible side of the current card. */
  function Face(d: Deck): (text: string)
    requires DeckOk(d) && |d.cards| > 0
    ensures d.flipped ==> text == d.cards[d.current].back
    ensures !d.flipped ==> text == d.cards[d.current].front
  {
    if d.flipped then d.cards[d.current].back else d.cards[d.current].front
  }

  /** The "new deck" button: empties the deck and rewinds the position. */
  function NewDeck(d: Deck): (r: Deck)
    ensures |r.cards| == 0 && r.current == 0 && DeckOk(r)
  {
    d.(cards := [], current := 0)
  }

  /** Flipping twice shows the same side again. */
  lemma FlipTwice(d: Deck)
    ensures Flip(Flip(d)) == d
  {
  }

  /** "Next" then "previous" comes back to the same card, front side up. */
  lemma NextThenPrev(d: Deck)
    requires DeckOk(d) && d.current + 1 < |d.cards|
    ensures Prev(Next(d)) == Show(d, d.current)
  {
  }

  /** From the first card, `k` presses of "next" reach card `k` as long as
      the deck is long enough, and then stop at the last card. */
  lemma {:induction false} NextPresses(d: Deck, k: nat)
    requires DeckOk(d) && |d.cards| > 0
    ensures NextN(d, k).current == if d.current + k < |d.cards| then d.current + k else |d.cards| - 1
    decreases k
  {
    if k > 0 {
      NextPresses(Next(d), k - 1);
    }
  }

  function NextN(d: Deck, k: nat): (r: Deck)
    requires DeckOk(d)
    ensures DeckOk(r) && r.cards == d.cards
    decreases k
  {
    if k == 0 then d else NextN(Next(d), k - 1)
  }
}

=== FILE: wrappers.dfy ===
/** Failure-compatible wrappers shared by every module of the model. */
module Wrappers {

  /** A value that may be absent: JavaScript's `null`/`undefined` for a lookup
      that found nothing. */
  datatype Option<+T> = None | Some(value: T) {

    /** The carried value, or `default` when there is none. */
    function GetOr(default: T): T {
      match this
      case Some(v) => v
      case None => default
    }
  }

  /** Either a value or the error that replaced it (a JavaScript `throw`). */
  datatype Result<+R, +E> = Ok(value: R) | Err(error: E)
}
